=== FILE: README.md ===
# Recipe manager: account, recipe and token rules

A Dafny model of the recipe-management application: a GraphQL server that
keeps users and recipes, authenticates callers with signed access and refresh
tokens, and scopes every recipe operation to its owner; plus the pure parts of
the browser client — the dashboard and recipe-table list helpers, the
multi-line rendering of ingredients and instructions, and the Apollo links that
attach the bearer header and recover from an UNAUTHENTICATED error.

Every server operation is a pure transition over an immutable store
(`Server.Db`: users as a sequence, since users are never deleted and a user's
id is its position; recipes as a map from id to record plus a source of fresh
ids), returning the new store and a `Result` carrying the resolver's value or
the error it throws. The time `now` (seconds), the signing secret, bcrypt's
salt and the network call of the client are parameters.

Modules, one per file:

| file | module | models |
|---|---|---|
| wrappers.dfy | `Wrappers` | `Option`, `Result` |
| strings.dfy | `Strings` | `toLowerCase` (ASCII), `startsWith`, `indexOf`, `includes`, `replace` with a string pattern, `split` on a character, `trim` |
| seqs.dfy | `Seqs` | `filter`, first-index search, `[...new Set(xs)]`, order-preserving subsequences |
| decimal.dfy | `Decimal` | decimal rendering and parsing used by the token wire form |
| tokens.dfy | `Tokens` | `jwt.sign` / `jwt.verify` with the `{ userId }` payload and `exp` |
| passwords.dfy | `Passwords` | `bcrypt.hash` / `bcrypt.compareSync` |
| server.dfy | `Server` | the stores, the resolvers, the context resolver, `/refresh_token` |
| recipe_data.dfy | `RecipeData` | the recipe records the `GetRecipes` query returns |
| dashboard.dfy | `Dashboard` | `recipes`, `filteredRecipes`, `categories` |
| recipe_list.dfy | `RecipeList` | `uniqueCategories`, `filteredRecipes`, `rows` |
| recipe_details.dfy | `RecipeDetails` | `renderList` |
| apollo_client.dfy | `ApolloClient` | `authLink`, `errorLink` and the two storage slots |
| session.dfy | `Session` | client/server round trips and the full login–refresh session |

Abstractions:

- A token is the string `userId.exp.signature` (decimal fields). The
  signature is a tag computed from the secret and the claims; the only
  property used is that different secrets give different tags for the same
  claims. `Tokens.Verify` accepts a token iff it decodes, its tag matches the
  secret, and `now < exp` (jsonwebtoken treats `now >= exp` as expired).
  `1h` is 3600 s and `7d` is 604800 s.
- A bcrypt hash records the cost (10), the salt and the part of the password
  bcrypt uses, its first 72 characters; `Matches` compares that part. Hence
  `Matches(pw, Hash(pw, salt))` for every salt.
- Mongoose's `required: true` on a String path rejects the empty string when a
  document is saved, so `register` and `addRecipe` fail with a validation
  error naming the empty paths. `findOneAndUpdate` runs no validators, so
  `updateRecipe` stores empty fields as given.
- The server's 401 reply carries the text body "Unauthorized", so the client's
  `response.json()` rejects and its `.catch` branch runs: a 401 and a network
  failure are handled alike.
- A whole request (`Server.HandleRequest`) runs the context function first,
  for `register` and `login` as well as the recipe operations, so a stored
  token that no longer verifies makes every request fail with 'Invalid token'.

## Model

| member | source | states |
|---|---|---|
| Server.Register | backend/server.js:84-96 | a taken username fails with 'Username already exists' even when the email is also taken; a taken email alone fails with 'Email already exists'; free but empty required fields fail with a validation error naming exactly the empty paths; every failure leaves the store unchanged; success happens exactly when both are free and non-empty, appends exactly one user holding the bcrypt hash of the password, and returns id, email and username only |
| Server.RegisterPreservesValid | backend/server.js:17-21 | registration keeps usernames and emails unique across the user store |
| Server.Login | backend/server.js:97-106 | unknown username and wrong password give the same 'Invalid credentials'; on success both tokens verify now, name the same user whose username and password match, and expire at now + 1 h and now + 7 d |
| Server.LoginSucceedsIff | backend/server.js:99-102 | with unique usernames, login succeeds exactly when some user has that username and a matching password |
| Server.RegisterThenLogin | backend/server.js:84-105 | a freshly registered user can log in with the same password and the access token names the new user's id |
| Server.ResolveContext | backend/server.js:140-155 | an absent or empty header is an anonymous caller and only that; otherwise the first 'Bearer ' is removed and the caller is the token's user exactly when the token verifies and the user exists; every failure, a missing user included, is AuthenticationError 'Invalid token' |
| Server.StripBearer | backend/server.js:144 | the first occurrence of 'Bearer ', wherever it is, is cut out and everything before and after it kept; a header starting with 'Bearer ' loses exactly that prefix; a header without 'Bearer ' anywhere is kept |
| Server.StripBearerInside | backend/server.js:144 | a 'Bearer ' that is not at the start is removed too: "xBearer y" becomes "xy" |
| Server.FindByUsername | backend/server.js:86 | none exactly when no user has the username, otherwise the first user that has it |
| Server.FindByEmail | backend/server.js:89 | none exactly when no user has the email, otherwise the first user that has it |
| Server.HandleRequest | backend/server.js:137-155 | the context runs before every operation: a header that fails to resolve rejects register, login and every recipe operation alike with 'Invalid token' and no change; once it resolves, register, login or the recipe operation runs with the resolved caller and its store, value and error become the request's; with no header a recipe operation fails with 'You must be logged in'; login never changes the store and only register changes the users |
| Server.HandleRequestPreservesValid | backend/server.js:73-155 | every request, whatever its header, keeps the unique indexes, required user fields, fresh ids and existing owners |
| Server.OpenMutationsIgnoreCaller | backend/server.js:84-106 | once the header resolves, register and login behave exactly as for an anonymous request |
| Server.RejectedHeaderBlocksAll | backend/server.js:140-152 | a non-empty header whose token does not verify blocks every request, login and register included, and leaves the store unchanged |
| Server.RefreshRoute | backend/server.js:162-182 | a missing or empty token, one that does not verify, and one naming no user all give 401; otherwise the reply is a one-hour access token for the same user |
| Server.GetRecipes | backend/server.js:74-77 | without a caller, 'You must be logged in'; otherwise exactly the caller's recipes with their fields |
| Server.GetRecipe | backend/server.js:78-81 | null exactly when the id is absent or owned by someone else, otherwise that recipe |
| Server.AddRecipe | backend/server.js:107-112 | without a caller nothing changes; empty required fields fail validation; on success the new record's owner is the caller, the returned recipe has the given fields, the users are untouched and every other recipe keeps its value |
| Server.AddRecipeFresh | backend/server.js:109-110 | in a valid store the new id was unused, so exactly one recipe is added |
| Server.AddThenGet | backend/server.js:78-112 | what addRecipe returns, getRecipe by the same caller gives back |
| Server.DeleteRecipe | backend/server.js:113-120 | succeeds exactly for the caller's own recipe, returning true and removing only that record; otherwise 'Recipe not found or not authorized' (or 'You must be logged in') and no change |
| Server.UpdateRecipe | backend/server.js:121-132 | succeeds exactly for the caller's own recipe, replacing its five fields, keeping its owner and other records, and returning the stored result; otherwise the shared error and no change |
| Server.Execute | backend/server.js:73-133 | every recipe operation without a caller fails with 'You must be logged in' and leaves both stores unchanged; none touches users; a recipe that appears belongs to the caller |
| Server.DeleteThenGet | backend/server.js:113-120 | after a delete the recipe is no longer readable or listed by its owner, and deleting it again fails |
| Server.UpdateThenGet | backend/server.js:121-132 | after an update the owner reads back exactly the new fields, which is what the update returned |
| Server.ExecutePreservesValid | backend/server.js:23-30 | recipe operations by an existing user keep ids fresh and every owner an existing user |
| Server.OwnershipStable | backend/server.js:121-127 | no recipe operation changes the owner of a recipe that survives it |
| Server.CrossUserIsolation | backend/server.js:74-131 | another user's recipe is not listed, reads as null exactly like an absent id, and cannot be deleted or updated |
| Tokens.Verify | backend/server.js:170 | a token verifies exactly when it decodes, its tag is the secret's tag for its claims and it has not expired, and then yields those claims |
| Tokens.Mint | backend/server.js:103-104 | the minted token decodes to the user id, the expiry issue time + lifetime, and the secret's tag for those claims |
| Tokens.DecodeSign | backend/server.js:103-104 | a signed token decodes back to its claims and signature |
| Tokens.VerifyMinted | backend/server.js:180 | a minted token verifies under the same secret strictly before issue time + lifetime, and under no other secret or at any later time |
| Passwords.Hash | backend/server.js:92 | the stored hash accepts the password it was made from, with cost 10 and the given salt |
| Passwords.Matches | backend/server.js:100 | a hash accepts a password exactly when its stored key is the whole password, for up to 72 characters, or else the password's first 72 characters |
| Passwords.MatchesShort | backend/server.js:100 | up to 72 characters, a hash accepts exactly its own password |
| Passwords.MatchesLongPrefix | backend/server.js:100 | passwords agreeing on their first 72 characters are both accepted |
| Strings.Lower | frontend/src/components/Dashboard.js:36 | same length, each ASCII capital replaced by its lower-case letter and every other character kept, so no capital remains |
| Strings.StartsWith | frontend/src/components/Dashboard.js:36 | true exactly when the prefix is no longer than the string and matches it character by character |
| Strings.Contains | frontend/src/components/RecipeList.js:27 | true exactly when the pattern starts at some position of the string |
| Strings.ReplaceFirst | backend/server.js:144 | only the first occurrence of the pattern is replaced; without one the string is unchanged |
| Strings.IndexOf | frontend/src/components/RecipeList.js:27 | the reported position holds the pattern and no earlier position does; absence means no position does |
| Seqs.Filter | frontend/src/components/Dashboard.js:35-37 | the result is an order-preserving subsequence holding exactly the elements satisfying the predicate, with their multiplicities |
| Seqs.Dedup | frontend/src/components/RecipeList.js:17 | no duplicates, the same set of elements, ordered by first occurrence |
| Dashboard.Recipes | frontend/src/components/Dashboard.js:34 | no data yet gives the empty list, otherwise the query's list |
| Dashboard.FilteredRecipes | frontend/src/components/Dashboard.js:35-37 | an order-preserving subsequence keeping a recipe iff its lower-cased title starts with the lower-cased query |
| Dashboard.EmptySearchKeepsAll | frontend/src/components/Dashboard.js:35-37 | an empty query keeps every recipe |
| Dashboard.NoDataShowsNothing | frontend/src/components/Dashboard.js:34-39 | before the query has data, nothing is listed and no category is offered, whatever the search |
| Dashboard.Categories | frontend/src/components/Dashboard.js:39 | empty without recipes; otherwise duplicate-free, exactly the recipes' categories, in first-occurrence order |
| RecipeList.UniqueCategories | frontend/src/components/RecipeList.js:15-20 | empty before data arrives; then duplicate-free, exactly the recipes' categories, in first-occurrence order |
| RecipeList.FilteredRecipes | frontend/src/components/RecipeList.js:25-30 | an order-preserving subsequence keeping a recipe iff its lower-cased title contains the lower-cased term and, for a non-empty filter, its category equals it exactly |
| RecipeList.NoFilterKeepsAll | frontend/src/components/RecipeList.js:27-28 | an empty term and no category keep every recipe |
| RecipeList.CategoryFilterShrinks | frontend/src/components/RecipeList.js:28 | choosing a category yields a subsequence of the result without one |
| RecipeList.Rows | frontend/src/components/RecipeList.js:49-53 | one row per filtered recipe, row i carrying recipe i's id, title and category |
| RecipeList.RowIdsDistinct | frontend/src/components/RecipeList.js:49-53 | when the query's recipes have distinct ids, the rows handed to the grid, which keys rows by id, have distinct ids for every search and category |
| RecipeDetails.RenderList | frontend/src/components/RecipeDetails.js:31-39 | one item per newline plus one, no item contains a newline, and each item is its line trimmed, with no white space at either end |
| RecipeDetails.EmptyRendersOneItem | frontend/src/components/RecipeDetails.js:33 | an empty text renders as one empty item |
| Strings.SplitCount | frontend/src/components/RecipeDetails.js:33 | a split yields one more piece than there are separators |
| Strings.Split | frontend/src/components/RecipeDetails.js:33 | at least one piece, and no piece contains the separator |
| Strings.SplitJoin | frontend/src/components/RecipeDetails.js:33 | joining the pieces with the separator reproduces the input |
| Strings.Trim | frontend/src/components/RecipeDetails.js:35 | the result is a contiguous part of the input with no white space at either end, and everything of the input before and after it is white space |
| Strings.TrimFixpoint | frontend/src/components/RecipeDetails.js:35 | trim leaves a string unchanged exactly when it has no white space at either end |
| Strings.TrimIdempotent | frontend/src/components/RecipeDetails.js:35 | trimming twice is trimming once |
| ApolloClient.Authorization | frontend/src/apolloClient.js:16 | the header is empty exactly when no non-empty token is stored, otherwise 'Bearer ' followed by the token |
| ApolloClient.AuthLink | frontend/src/apolloClient.js:11-19 | every other incoming header is kept and only `authorization` is set |
| ApolloClient.RefreshRequest | frontend/src/apolloClient.js:22-26 | a refresh is posted exactly when some error has code UNAUTHENTICATED and a non-empty refresh token is stored, and it posts that token |
| ApolloClient.CompleteRefresh | frontend/src/apolloClient.js:34-51 | on a new access token it is stored, the refresh token kept, and the retry action carries the operation's headers with authorization 'Bearer ' + token; on any failure both slots are cleared and the user sent to login |
| ApolloClient.ErrorLink | frontend/src/apolloClient.js:21-60 | with no refresh to attempt storage is unchanged and the error passes through; otherwise the stored refresh token is posted, an issued token is stored and the operation marked for retry with it, and any other outcome clears both slots and redirects to login |
| Session.BearerRoundTrip | frontend/src/apolloClient.js:16 | the server's first-'Bearer ' removal applied to the client's header gives back exactly the stored token |
| Session.NoTokenIsAnonymous | frontend/src/apolloClient.js:12-16 | with no stored token the server sees an anonymous caller |
| Session.ExpiredTokenBlocksAll | frontend/src/apolloClient.js:11-19 | an expired access token left in storage is still sent, and the server then rejects every request with it, login and register included, with 'Invalid token' and no change |
| Session.TokenRequestRunsAsUser | backend/server.js:140-155 | a request carrying an unexpired access token of an existing user runs the recipe operation as that user, with that operation's store and outcome |
| Session.TokenListsOwnRecipes | backend/server.js:74-77 | getRecipes sent with an unexpired access token lists exactly the recipes its user owns, with their fields, and changes nothing |
| Session.MintedTokenResolves | backend/server.js:140-153 | a server-minted token for an existing user, sent by the client, resolves to that user before expiry and to 'Invalid token' from then on |
| Session.LoginTokens | backend/server.js:103-105 | login's two tokens are minted for the authenticated user with lifetimes 1 h and 7 d |
| Session.LoginTokensAuthenticate | backend/server.js:140-153 | login's access token authenticates its user for an hour and the refresh token, sharing the payload shape, for seven days |
| Session.RefreshAcceptsLoginTokens | backend/server.js:162-181 | the refresh route accepts either login token while unexpired and issues a one-hour token for the same user; the refresh token is not consumed |
| Session.RefreshRetryAuthenticates | frontend/src/apolloClient.js:21-51 | against this server, an unexpired refresh token leads to a stored new token and a retry header that authenticates the same user; an expired one clears both slots |
| Session.EndToEnd | backend/server.js:84-181 | register alice, log in, add a recipe, list exactly that recipe, refresh within seven days, and list again with the new token |

## Left out

- The MongoDB connection, Express, CORS and body parsing, the Apollo server construction and `listen` (backend/server.js:1-14, 137-139, 156-160, 184-189): I/O plumbing; the stores are immutable values instead.
- The cryptography of bcrypt and jsonwebtoken: foreign libraries. Tokens keep only `{userId, exp}` and a keyed tag (no `iat`, no header segment, no base64url); unforgeability is not modelled.
- Passwords.Hash: bcrypt truncates at 72 bytes of UTF-8, the model at 72 characters; they agree on ASCII passwords.
- Strings.Lower: only ASCII letters are lower-cased; JavaScript's full Unicode case mapping is not modelled.
- Malformed ids: a `getRecipe`, `deleteRecipe` or `updateRecipe` id that is not a valid ObjectId makes mongoose throw a cast error, and so does a verified token whose `userId` is not one (caught in the context resolver, uncaught in `/refresh_token`); the model's ids are numbers, so these paths do not arise.
- A `/refresh_token` body whose `refreshToken` is present but not a string: the model takes an optional string.
- A GraphQL error without an `extensions` object, which makes `errorLink` throw: the model's errors always carry an optional code.
- Concurrency: overlapping requests, the race between the duplicate checks and the save in `register`, and per-document atomicity; each operation is atomic.
- The order of `getRecipes`: MongoDB guarantees none, so the result is a map from id to fields.
- `fetch`, `forward(operation)`, the `window.location` redirect and real `localStorage`: browser and network I/O; the network call is a parameter, the redirect an action value, storage two slots.
- The React components as UI (JSX, hooks, navigation, `window.confirm`, `toLocaleDateString`) and App.js, index.js, Register.js, Login.js, AddEditRecipe.js, Recipes.js and graphql/queries.js, which are form and query glue. The client-side refresh chain is modelled from the stored refresh token on; how it gets stored is not, and frontend/src/components/Login.js:15 stores `data.login.refreshToken` although the login query (frontend/src/graphql/queries.js:78-84) does not select it.
- Logging of network errors in `errorLink`: console output only.
- ApolloClient.CompleteRefresh: its `Retry` action models the intended re-send of the operation with the new header. The source returns a Promise from the `onError` handler, and Apollo Client 3 expects an Observable there, so the Observable built by `forward(operation)` may never be subscribed; the model does not say whether the operation is in fact sent again.
- Session.RefreshRetryAuthenticates: shows that the header of the `Retry` action authenticates; for the reason above it does not claim that a retried request reaches the server.

=== FILE: apollo_client.dfy ===
/**
 * The client's request links: `authLink` attaches the stored access token
 * as a bearer header, and `errorLink` reacts to an UNAUTHENTICATED error by
 * exchanging the stored refresh token for a new access token and returning
 * a `Retry` action with the new bearer header, or by clearing both storage
 * slots when the exchange fails. The network
 * call is a parameter.
 */
module ApolloClient {
  import opened Wrappers
  import Seqs
  import Server

  /** The two `localStorage` slots the client uses. */
  datatype Storage = Storage(token: Option<string>, refreshToken: Option<string>)

  type Headers = map<string, string>

  const AuthorizationKey: string := "authorization"
  const UnauthenticatedCode: string := "UNAUTHENTICATED"

  /** A stored value counts when present and not the empty string. */
  predicate Truthy(v: Option<string>) {
    v.Some? && v.value != ""
  }

  /** The bearer header value for a stored token. */
  function BearerHeader(token: string): string {
    Server.BearerPrefix + token
  }

  /** `token ? \`Bearer ${token}\` : ''`. */
  function Authorization(token: Option<string>): (h: string)
    ensures h == "" <==> !Truthy(token)
    ensures Truthy(token) ==> h == "Bearer " + token.value
  {
    if Truthy(token) then BearerHeader(token.value) else ""
  }

  /** `authLink`: the incoming headers with `authorization` set from storage. */
  function AuthLink(headers: Headers, storage: Storage): (h: Headers)
    ensures h.Keys == headers.Keys + {AuthorizationKey}
    ensures forall k :: k in headers && k != AuthorizationKey ==> h[k] == headers[k]
    ensures h[AuthorizationKey] == Authorization(storage.token)
  {
    headers[AuthorizationKey := Authorization(storage.token)]
  }

  /** One entry of `graphQLErrors`; `code` is `extensions.code`. */
  datatype GraphQLError = GraphQLError(message: string, code: Option<string>)

  /**
   * The refresh token `errorLink` posts to `/refresh_token`, if it posts at
   * all: only when some error is UNAUTHENTICATED and a refresh token is stored.
   */
  function RefreshRequest(graphQLErrors: Option<seq<GraphQLError>>, storage: Storage): (r: Option<string>)
    ensures r.Some? <==> && graphQLErrors.Some?
                         && (exists i :: 0 <= i < |graphQLErrors.value| && graphQLErrors.value[i].code == Some(UnauthenticatedCode))
                         && Truthy(storage.refreshToken)
    ensures r.Some? ==> r.value == storage.refreshToken.value
  {
    match graphQLErrors
    case None => None
    case Some(errs) =>
      var unauthenticated := (e: GraphQLError) => e.code == Some(UnauthenticatedCode);
      var found := Seqs.IndexWhere(errs, unauthenticated);
      if found.Some? && Truthy(storage.refreshToken) then Some(storage.refreshToken.value) else None
  }

  /**
   * What `fetch` produced: the server's reply, or a rejected request. A 401
   * reply has the text body "Unauthorized", so `response.json()` rejects.
   */
  datatype FetchOutcome = Responded(response: Server.RefreshResponse) | NetworkFailure

  /** What happens to the failed operation. */
  datatype ErrorAction =
    | PassThrough                  // the error reaches the caller
    | Retry(headers: Headers)      // the intended `forward(operation)` with new headers
    | RedirectToLogin              // `window.location.href = '/login'`

  datatype Handled = Handled(storage: Storage, action: ErrorAction)

  /** The continuation after the refresh request: `.then(...)` on success, `.catch(...)` otherwise. */
  function CompleteRefresh(storage: Storage, operationHeaders: Headers, outcome: FetchOutcome): (h: Handled)
    ensures outcome.Responded? && outcome.response.Issued? ==>
              var t := outcome.response.accessToken;
              && h.storage == Storage(Some(t), storage.refreshToken)
              && h.action.Retry?
              && h.action.headers == operationHeaders[AuthorizationKey := "Bearer " + t]
    ensures !(outcome.Responded? && outcome.response.Issued?) ==>
              h == Handled(Storage(None, None), RedirectToLogin)
  {
    match outcome
    case Responded(Issued(t)) =>
      Handled(storage.(token := Some(t)), Retry(operationHeaders[AuthorizationKey := BearerHeader(t)]))
    case _ => Handled(Storage(None, None), RedirectToLogin)
  }

  /**
   * `errorLink`: with no refresh to attempt, storage is untouched and the
   * error passes through; otherwise the stored refresh token is posted, an
   * issued token is stored and put in the header of a `Retry` action, and
   * any other outcome clears both slots and redirects.
   */
  function ErrorLink(graphQLErrors: Option<seq<GraphQLError>>, storage: Storage, operationHeaders: Headers,
                     fetch: string -> FetchOutcome): (h: Handled)
    ensures RefreshRequest(graphQLErrors, storage).None? ==> h == Handled(storage, PassThrough)
    ensures RefreshRequest(graphQLErrors, storage).Some? ==>
              var outcome := fetch(RefreshRequest(graphQLErrors, storage).value);
              && (outcome.Responded? && outcome.response.Issued? ==>
                    var t := outcome.response.accessToken;
                    h == Handled(Storage(Some(t), storage.refreshToken),
                                 Retry(operationHeaders[AuthorizationKey := "Bearer " + t])))
              && (!(outcome.Responded? && outcome.response.Issued?) ==>
                    h == Handled(Storage(None, None), RedirectToLogin))
    ensures h.action.Retry? ==> h.storage.refreshToken == storage.refreshToken && Truthy(storage.refreshToken)
    ensures h.action.RedirectToLogin? <==> h.storage == Storage(None, None) && !h.action.PassThrough?
  {
    match RefreshRequest(graphQLErrors, storage)
    case None => Handled(storage, PassThrough)
    case Some(rt) => CompleteRefresh(storage, operationHeaders, fetch(rt))
  }
}

=== FILE: dashboard.dfy ===
/**
 * The dashboard's derived lists: the recipes shown (none until the query has
 * data), those whose title starts with the search text ignoring case, and
 * the distinct categories.
 */
module Dashboard {
  import opened Wrappers
  import opened Strings
  import opened Seqs
  import opened RecipeData

  /** `data ? data.getRecipes : []`. */
  function Recipes(data: Option<seq<RecipeItem>>): (r: seq<RecipeItem>)
    ensures data.None? ==> r == []
    ensures data.Some? ==> r == data.value
  {
    data.GetOr([])
  }

  /** Case-insensitive title prefix match. */
  predicate MatchesSearch(recipe: RecipeItem, searchQuery: string) {
    StartsWith(Lower(recipe.title), Lower(searchQuery))
  }

  /** `filteredRecipes`: the recipes whose lower-cased title starts with the lower-cased query, in order. */
  function FilteredRecipes(recipes: seq<RecipeItem>, searchQuery: string): (r: seq<RecipeItem>)
    ensures IsSubseq(r, recipes)
    ensures forall x :: x in r <==> x in recipes && StartsWith(Lower(x.title), Lower(searchQuery))
    ensures forall x :: multiset(r)[x] == if MatchesSearch(x, searchQuery) then multiset(recipes)[x] else 0
  {
    Filter(recipes, (x: RecipeItem) => MatchesSearch(x, searchQuery))
  }

  /** An empty search keeps every recipe. */
  lemma {:induction false} EmptySearchKeepsAll(recipes: seq<RecipeItem>)
    ensures FilteredRecipes(recipes, "") == recipes
  {
    FilterAll(recipes, (x: RecipeItem) => MatchesSearch(x, ""));
  }

  /**
   * `categories`: each recipe category once, in order of first appearance;
   * empty when there are no recipes.
   */
  function Categories(recipes: seq<RecipeItem>): (r: seq<string>)
    ensures |recipes| == 0 ==> r == []
    ensures NoDups(r)
    ensures forall c :: c in r <==> exists i :: 0 <= i < |recipes| && recipes[i].category == c
    ensures forall i, j :: 0 <= i < j < |r| ==>
              FirstIndex(CategoriesOf(recipes), r[i]) < FirstIndex(CategoriesOf(recipes), r[j])
  {
    if |recipes| > 0 then
      var cs := CategoriesOf(recipes);
      assert forall c :: c in cs <==> exists i :: 0 <= i < |recipes| && recipes[i].category == c by {
        forall c | c in cs ensures exists i :: 0 <= i < |recipes| && recipes[i].category == c {
          var i :| 0 <= i < |cs| && cs[i] == c;
        }
      }
      Dedup(cs)
    else []
  }

  /** Before the query has data, nothing is listed and no category is offered, whatever the search. */
  lemma NoDataShowsNothing(searchQuery: string)
    ensures FilteredRecipes(Recipes(None), searchQuery) == []
    ensures Categories(Recipes(None)) == []
  {
  }
}

=== FILE: decimal.dfy ===
/** Decimal rendering and parsing of natural numbers, used for token segments. */
module Decimal {
  import opened Wrappers

  predicate IsDigit(c: char) {
    '0' <= c <= '9'
  }

  predicate AllDigits(s: string) {
    forall i :: 0 <= i < |s| ==> IsDigit(s[i])
  }

  function DigitChar(d: nat): (c: char)
    requires d < 10
    ensures IsDigit(c) && DigitValue(c) == d
  {
    (48 + d) as char
  }

  function DigitValue(c: char): (d: nat)
    requires IsDigit(c)
    ensures d < 10
  {
    c as int - 48
  }

  /** The shortest decimal rendering of `n` (no leading zeros). */
  function Show(n: nat): (s: string)
    ensures |s| >= 1 && AllDigits(s)
    ensures '.' !in s
    decreases n
  {
    if n < 10 then [DigitChar(n)] else Show(n / 10) + [DigitChar(n % 10)]
  }

  /** The value of a string of digits, most significant first. */
  function Value(s: string): nat
    requires AllDigits(s)
    decreases |s|
  {
    if |s| == 0 then 0 else 10 * Value(s[..|s| - 1]) + DigitValue(s[|s| - 1])
  }

  /** Parses a non-empty string of digits; anything else is rejected. */
  function Read(s: string): (r: Option<nat>)
    ensures r.Some? <==> |s| > 0 && AllDigits(s)
  {
    if |s| > 0 && AllDigits(s) then Some(Value(s)) else None
  }

  /** Reading back a rendered number gives the number. */
  lemma {:induction false} ReadShow(n: nat)
    ensures Read(Show(n)) == Some(n)
    decreases n
  {
    var s := Show(n);
    if n < 10 {
      assert s[..|s| - 1] == [];
    } else {
      ReadShow(n / 10);
      assert s[..|s| - 1] == Show(n / 10);
      assert Value(s) == 10 * (n / 10) + n % 10;
    }
  }
}

=== FILE: passwords.dfy ===
/**
 * The password hashing the server does with `bcrypt.hash(password, 10)` and
 * checks with `bcrypt.compareSync`. The salt is a parameter (bcrypt draws it
 * at random) and the one-way digest is represented by the part of the
 * password bcrypt actually uses: its first 72 characters.
 */
module Passwords {
  import Strings

  /** The cost factor passed to `bcrypt.hash`. */
  const SaltRounds: nat := 10
  /** bcrypt ignores everything past this length. */
  const MaxKeyLength: nat := 72

  datatype PasswordHash = PasswordHash(cost: nat, salt: nat, key: string)

  /** The part of a password that bcrypt hashes. */
  function Truncate(pw: string): (r: string)
    ensures |r| <= MaxKeyLength && Strings.StartsWith(pw, r)
  {
    if |pw| <= MaxKeyLength then pw else pw[..MaxKeyLength]
  }

  /**
   * `bcrypt.compareSync(pw, h)`: the stored key is the password itself when
   * it is short, and otherwise exactly its first 72 characters.
   */
  function Matches(pw: string, h: PasswordHash): (b: bool)
    ensures b <==> Strings.StartsWith(pw, h.key) && |h.key| == (if |pw| <= MaxKeyLength then |pw| else MaxKeyLength)
  {
    Truncate(pw) == h.key
  }

  /** `bcrypt.hash(pw, SaltRounds)` with the given salt. */
  function Hash(pw: string, salt: nat): (h: PasswordHash)
    ensures h.cost == SaltRounds && h.salt == salt
    ensures Matches(pw, h)
  {
    PasswordHash(SaltRounds, salt, Truncate(pw))
  }

  /** Up to 72 characters, a hash accepts exactly the password it was made from, whatever the salt. */
  lemma MatchesShort(pw: string, other: string, salt: nat)
    requires |pw| <= MaxKeyLength && |other| <= MaxKeyLength
    ensures Matches(other, Hash(pw, salt)) <==> other == pw
  {
  }

  /** Passwords that agree on their first 72 characters are interchangeable. */
  lemma MatchesLongPrefix(pw: string, other: string, salt: nat)
    requires |pw| >= MaxKeyLength && |other| >= MaxKeyLength
    requires pw[..MaxKeyLength] == other[..MaxKeyLength]
    ensures Matches(other, Hash(pw, salt))
  {
  }
}

=== FILE: recipe_data.dfy ===
/** The recipe records the client receives from the `GetRecipes` query. */
module RecipeData {

  /** One element of `data.getRecipes`, with the fields the query selects. */
  datatype RecipeItem = RecipeItem(id: string, title: string, ingredients: string,
                                   instructions: string, category: string, date: string)

  /** `recipes.map(recipe => recipe.category)`. */
  function CategoriesOf(recipes: seq<RecipeItem>): (r: seq<string>)
    ensures |r| == |recipes|
    ensures forall i :: 0 <= i < |recipes| ==> r[i] == recipes[i].category
  {
    seq(|recipes|, i requires 0 <= i < |recipes| => recipes[i].category)
  }
}

=== FILE: recipe_details.dfy ===
/** The numbered list a recipe's ingredients or instructions are rendered as. */
module RecipeDetails {
  import opened Strings

  /** `renderList(items)`: one item per line, each trimmed. */
  function RenderList(items: string): (r: seq<string>)
    ensures |r| == |Split(items, '\n')| == Count(items, '\n') + 1
    ensures forall k :: 0 <= k < |r| ==> '\n' !in r[k]
    ensures forall k :: 0 <= k < |r| ==> r[k] == [] || (!IsWs(r[k][0]) && !IsWs(r[k][|r[k]| - 1]))
    ensures forall k :: 0 <= k < |r| ==> r[k] == Trim(Split(items, '\n')[k])
  {
    var lines := Split(items, '\n');
    SplitCount(items, '\n');
    seq(|lines|, k requires 0 <= k < |lines| => Trim(lines[k]))
  }

  /** An empty text renders as a single empty item. */
  lemma EmptyRendersOneItem()
    ensures RenderList("") == [""]
  {
  }
}

=== FILE: recipe_list.dfy ===
/**
 * The recipe table: the category choices, the recipes whose title contains
 * the search text ignoring case and whose category equals the chosen one,
 * and the rows handed to the grid.
 */
module RecipeList {
  import opened Wrappers
  import opened Strings
  import opened Seqs
  import opened RecipeData

  /**
   * The `categories` state: `[]` until data arrives, then each recipe
   * category once, in order of first appearance.
   */
  function UniqueCategories(data: Option<seq<RecipeItem>>): (r: seq<string>)
    ensures data.None? ==> r == []
    ensures NoDups(r)
    ensures data.Some? ==> forall c :: c in r <==> c in CategoriesOf(data.value)
    ensures data.Some? ==> forall i, j :: 0 <= i < j < |r| ==>
              FirstIndex(CategoriesOf(data.value), r[i]) < FirstIndex(CategoriesOf(data.value), r[j])
  {
    match data
    case None => []
    case Some(recipes) => Dedup(CategoriesOf(recipes))
  }

  /** Title contains the search term ignoring case, and a non-empty category filter matches exactly. */
  predicate Keep(recipe: RecipeItem, searchTerm: string, categoryFilter: string) {
    Contains(Lower(recipe.title), Lower(searchTerm)) && (categoryFilter != "" ==> recipe.category == categoryFilter)
  }

  /** `filteredRecipes`. */
  function FilteredRecipes(recipes: seq<RecipeItem>, searchTerm: string, categoryFilter: string): (r: seq<RecipeItem>)
    ensures IsSubseq(r, recipes)
    ensures forall x :: x in r <==> x in recipes && Contains(Lower(x.title), Lower(searchTerm))
                                    && (categoryFilter != "" ==> x.category == categoryFilter)
    ensures forall x :: multiset(r)[x] == if Keep(x, searchTerm, categoryFilter) then multiset(recipes)[x] else 0
  {
    Filter(recipes, (x: RecipeItem) => Keep(x, searchTerm, categoryFilter))
  }

  /** No search term and no category keeps every recipe. */
  lemma {:induction false} NoFilterKeepsAll(recipes: seq<RecipeItem>)
    ensures FilteredRecipes(recipes, "", "") == recipes
  {
    forall k | 0 <= k < |recipes| ensures Keep(recipes[k], "", "") {
      assert StartsWith(Lower(recipes[k].title), Lower(""));
    }
    FilterAll(recipes, (x: RecipeItem) => Keep(x, "", ""));
  }

  /** Choosing a category can only remove recipes from the unfiltered-by-category result. */
  lemma {:induction false} CategoryFilterShrinks(recipes: seq<RecipeItem>, searchTerm: string, categoryFilter: string)
    ensures IsSubseq(FilteredRecipes(recipes, searchTerm, categoryFilter), FilteredRecipes(recipes, searchTerm, ""))
  {
    FilterMonotone(recipes, (x: RecipeItem) => Keep(x, searchTerm, categoryFilter), (x: RecipeItem) => Keep(x, searchTerm, ""));
  }

  /** One grid row. */
  datatype Row = Row(id: string, title: string, category: string)

  /** `rows`: one row per filtered recipe, in the same order. */
  function Rows(filtered: seq<RecipeItem>): (r: seq<Row>)
    ensures |r| == |filtered|
    ensures forall i :: 0 <= i < |r| ==>
              r[i].id == filtered[i].id && r[i].title == filtered[i].title && r[i].category == filtered[i].category
  {
    seq(|filtered|, i requires 0 <= i < |filtered| => Row(filtered[i].id, filtered[i].title, filtered[i].category))
  }

  /**
   * The grid keys its rows by `id`: when the query returns recipes with
   * distinct ids, the rows shown for any search and category have distinct
   * ids too.
   */
  lemma {:induction false} RowIdsDistinct(recipes: seq<RecipeItem>, searchTerm: string, categoryFilter: string)
    requires forall i, j :: 0 <= i < j < |recipes| ==> recipes[i].id != recipes[j].id
    ensures var rows := Rows(FilteredRecipes(recipes, searchTerm, categoryFilter));
            forall i, j :: 0 <= i < j < |rows| ==> rows[i].id != rows[j].id
  {
    var filtered := FilteredRecipes(recipes, searchTerm, categoryFilter);
    SubseqKeysDistinct(filtered, recipes, (x: RecipeItem) => x.id);
  }
}

=== FILE: seqs.dfy ===
/**
 * Sequence helpers with JavaScript semantics: `Array.prototype.filter`,
 * `findIndex`-style search, and `[...new Set(xs)]` (duplicates dropped,
 * first occurrences kept in order).
 */
module Seqs {
  import opened Wrappers

  /** `a` can be obtained from `b` by deleting elements, keeping the order of the rest. */
  predicate IsSubseq<T(==)>(a: seq<T>, b: seq<T>)
    decreases |b|
  {
    if |a| == 0 then true
    else if |b| == 0 then false
    else if a[0] == b[0] then IsSubseq(a[1..], b[1..])
    else IsSubseq(a, b[1..])
  }

  /** Adding an element in front of the larger sequence keeps a subsequence. */
  lemma {:induction false} SubseqCons<T>(a: seq<T>, x: T, b: seq<T>)
    requires IsSubseq(a, b)
    ensures IsSubseq(a, [x] + b)
    decreases |b|, 1
  {
    if |a| > 0 && a[0] == x {
      assert ([x] + b)[1..] == b;
      SubseqDropHead(a, b);
    } else {
      assert ([x] + b)[1..] == b;
    }
  }

  /** Dropping the head of a subsequence keeps it a subsequence. */
  lemma {:induction false} SubseqDropHead<T>(a: seq<T>, b: seq<T>)
    requires |a| > 0 && IsSubseq(a, b)
    ensures IsSubseq(a[1..], b)
    decreases |b|, 0
  {
    if a[0] == b[0] {
      SubseqCons(a[1..], b[0], b[1..]);
      assert [b[0]] + b[1..] == b;
    } else {
      SubseqDropHead(a, b[1..]);
      SubseqCons(a[1..], b[0], b[1..]);
      assert [b[0]] + b[1..] == b;
    }
  }

  /** Every element of a subsequence is an element of the larger sequence. */
  lemma {:induction false} SubseqIn<T>(a: seq<T>, b: seq<T>, x: T)
    requires IsSubseq(a, b) && x in a
    ensures x in b
    decreases |b|
  {
    if a[0] == b[0] {
      if x != a[0] {
        assert x in a[1..];
        SubseqIn(a[1..], b[1..], x);
      }
    } else {
      SubseqIn(a, b[1..], x);
    }
  }

  /** A subsequence of a sequence whose elements have pairwise distinct keys has pairwise distinct keys too. */
  lemma {:induction false} SubseqKeysDistinct<T, K>(a: seq<T>, b: seq<T>, key: T -> K)
    requires IsSubseq(a, b)
    requires forall i, j :: 0 <= i < j < |b| ==> key(b[i]) != key(b[j])
    ensures forall i, j :: 0 <= i < j < |a| ==> key(a[i]) != key(a[j])
    decreases |b|
  {
    if |a| > 0 {
      var t := b[1..];
      assert forall i :: 0 <= i < |t| ==> t[i] == b[i + 1];
      if a[0] == b[0] {
        SubseqKeysDistinct(a[1..], t, key);
        forall i, j | 0 <= i < j < |a|
          ensures key(a[i]) != key(a[j])
        {
          assert a[j] == a[1..][j - 1];
          if i == 0 {
            SubseqIn(a[1..], t, a[j]);
            var k :| 0 <= k < |t| && t[k] == a[j];
            assert key(b[0]) != key(b[k + 1]);
          } else {
            assert a[i] == a[1..][i - 1];
          }
        }
      } else {
        SubseqKeysDistinct(a, t, key);
      }
    }
  }

  /**
   * `s.filter(p)`: the elements of `s` satisfying `p`, in their original
   * order and with their original multiplicities.
   */
  function Filter<T(==,!new)>(s: seq<T>, p: T -> bool): (r: seq<T>)
    ensures IsSubseq(r, s)
    ensures forall x :: x in r <==> x in s && p(x)
    ensures forall x :: multiset(r)[x] == if p(x) then multiset(s)[x] else 0
    ensures forall k :: 0 <= k < |r| ==> p(r[k])
    decreases |s|
  {
    if |s| == 0 then []
    else
      var rest := Filter(s[1..], p);
      assert s == [s[0]] + s[1..];
      if p(s[0]) then
        assert ([s[0]] + rest)[1..] == rest;
        [s[0]] + rest
      else
        SubseqCons(rest, s[0], s[1..]);
        rest
  }

  /** A predicate that holds everywhere keeps the whole sequence. */
  lemma {:induction false} FilterAll<T(!new)>(s: seq<T>, p: T -> bool)
    requires forall k :: 0 <= k < |s| ==> p(s[k])
    ensures Filter(s, p) == s
    decreases |s|
  {
    if |s| > 0 {
      FilterAll(s[1..], p);
      assert s == [s[0]] + s[1..];
    }
  }

  /** Filtering by a stronger predicate gives a subsequence of filtering by a weaker one. */
  lemma {:induction false} FilterMonotone<T(!new)>(s: seq<T>, p: T -> bool, q: T -> bool)
    requires forall k :: 0 <= k < |s| ==> p(s[k]) ==> q(s[k])
    ensures IsSubseq(Filter(s, p), Filter(s, q))
    decreases |s|
  {
    if |s| > 0 {
      FilterMonotone(s[1..], p, q);
      var fp, fq := Filter(s[1..], p), Filter(s[1..], q);
      if p(s[0]) {
        assert Filter(s, p) == [s[0]] + fp;
        assert Filter(s, q) == [s[0]] + fq;
        assert ([s[0]] + fp)[1..] == fp;
        assert ([s[0]] + fq)[1..] == fq;
      } else if q(s[0]) {
        SubseqCons(fp, s[0], fq);
      }
    }
  }

  /** `s.findIndex(p)`: the first index whose element satisfies `p`. */
  function IndexWhere<T>(s: seq<T>, p: T -> bool): (r: Option<nat>)
    ensures r.Some? ==> r.value < |s| && p(s[r.value]) && forall j :: 0 <= j < r.value ==> !p(s[j])
    ensures r.None? <==> forall j :: 0 <= j < |s| ==> !p(s[j])
    decreases |s|
  {
    if |s| == 0 then None
    else if p(s[0]) then Some(0)
    else
      match IndexWhere(s[1..], p)
      case None => None
      case Some(i) => Some(i + 1)
  }

  /** No element occurs twice. */
  predicate NoDups<T(==)>(s: seq<T>) {
    forall i, j :: 0 <= i < j < |s| ==> s[i] != s[j]
  }

  /** Position of the first occurrence of `x` in `s`, or `|s|` when absent. */
  function FirstIndex<T(==)>(s: seq<T>, x: T): (r: nat)
    ensures r <= |s|
    ensures r < |s| <==> x in s
    ensures r < |s| ==> s[r] == x && x !in s[..r]
    decreases |s|
  {
    if |s| == 0 then 0
    else if s[0] == x then 0
    else
      var i := FirstIndex(s[1..], x);
      assert s[1..][..i] == s[1..i + 1];
      i + 1
  }

  /** The first occurrence of an element already in a prefix is found in that prefix. */
  lemma {:induction false} FirstIndexPrefix<T>(s: seq<T>, k: nat, x: T)
    requires k <= |s| && x in s[..k]
    ensures FirstIndex(s, x) == FirstIndex(s[..k], x)
    decreases |s|
  {
    if s[0] != x {
      assert s[..k][1..] == s[1..][..k - 1];
      FirstIndexPrefix(s[1..], k - 1, x);
    }
  }

  /**
   * `[...new Set(s)]`: every distinct element of `s` once, ordered by its
   * first occurrence in `s` (the iteration order of a JavaScript `Set`).
   */
  function Dedup<T(==,!new)>(s: seq<T>): (r: seq<T>)
    ensures NoDups(r)
    ensures forall x :: x in r <==> x in s
    ensures forall i, j :: 0 <= i < j < |r| ==> FirstIndex(s, r[i]) < FirstIndex(s, r[j])
    decreases |s|
  {
    if |s| == 0 then []
    else
      var p := s[..|s| - 1];
      var x := s[|s| - 1];
      var r := Dedup(p);
      assert s == p + [x];
      assert forall y :: y in r ==> FirstIndex(s, y) == FirstIndex(p, y) by {
        forall y | y in r {
          FirstIndexPrefix(s, |s| - 1, y);
        }
      }
      if x in r then r
      else
        assert FirstIndex(s, x) == |s| - 1;
        r + [x]
  }
}

=== FILE: server.dfy ===
/**
 * The GraphQL API of the recipe server: the user and recipe stores, the
 * `register`/`login`/recipe resolvers, the per-request context resolver that
 * turns a bearer header into a caller, and the `/refresh_token` route.
 * Every operation is a pure transition over an immutable store.
 */
module Server {
  import opened Wrappers
  import Strings
  import Seqs
  import Tokens
  import Passwords

  /** Users are never deleted, so a user's id is its position in the user store. */
  type UserId = nat
  type RecipeId = nat

  datatype User = User(username: string, email: string, password: Passwords.PasswordHash)

  /** The five client-supplied recipe fields, all `String!` in the schema. */
  datatype RecipeFields = RecipeFields(title: string, ingredients: string, instructions: string,
                                       category: string, date: string)

  datatype Recipe = Recipe(fields: RecipeFields, owner: UserId)

  /** Both collections, plus the source of fresh recipe ids. */
  datatype Db = Db(users: seq<User>, recipes: map<RecipeId, Recipe>, nextRecipeId: RecipeId)

  /** The GraphQL `User` type: no password field. */
  datatype UserView = UserView(id: UserId, email: string, username: string)
  /** The GraphQL `Recipe` type: no owner field. */
  datatype RecipeView = RecipeView(id: RecipeId, fields: RecipeFields)
  datatype AuthPayload = AuthPayload(token: string, refreshToken: string)

  /**
   * What a resolver throws: Apollo's `AuthenticationError` (code
   * UNAUTHENTICATED), a plain `Error`, or mongoose's validation error naming
   * the required paths that were empty.
   */
  datatype ApiError =
    | AuthenticationError(message: string)
    | Error(message: string)
    | ValidationError(paths: set<string>)

  const MustBeLoggedIn: string := "You must be logged in"
  const UsernameExists: string := "Username already exists"
  const EmailExists: string := "Email already exists"
  const InvalidCredentials: string := "Invalid credentials"
  const NotFoundOrNotAuthorized: string := "Recipe not found or not authorized"
  const InvalidToken: string := "Invalid token"
  const BearerPrefix: string := "Bearer "

  /** The store after an operation together with what the resolver returned or threw. */
  datatype Step<T> = Step(db: Db, result: Result<T, ApiError>)

  /** An empty database. */
  const Empty: Db := Db([], map[], 0)

  /**
   * The store invariant: the unique indexes on username and email, the
   * required user fields, recipe ids below the id source, and every recipe
   * owned by an existing user.
   */
  ghost predicate Valid(db: Db) {
    && (forall i, j :: 0 <= i < j < |db.users| ==>
          db.users[i].username != db.users[j].username && db.users[i].email != db.users[j].email)
    && (forall i :: 0 <= i < |db.users| ==> db.users[i].username != "" && db.users[i].email != "")
    && (forall id :: id in db.recipes ==> id < db.nextRecipeId && db.recipes[id].owner < |db.users|)
  }

  lemma EmptyValid()
    ensures Valid(Empty) && |Empty.users| == 0 && Empty.recipes == map[]
  {
  }

  ghost predicate UsernameTaken(db: Db, username: string) {
    exists i :: 0 <= i < |db.users| && db.users[i].username == username
  }

  ghost predicate EmailTaken(db: Db, email: string) {
    exists i :: 0 <= i < |db.users| && db.users[i].email == email
  }

  /** User `id` exists, has this username, and the password matches its stored hash. */
  ghost predicate Authenticates(db: Db, id: UserId, username: string, password: string) {
    id < |db.users| && db.users[id].username == username && Passwords.Matches(password, db.users[id].password)
  }

  /** Recipe `id` exists and belongs to `user`: the filter `{ _id: id, userId: user }`. */
  predicate Owns(db: Db, user: UserId, id: RecipeId) {
    id in db.recipes && db.recipes[id].owner == user
  }

  /** `User.findOne({ username })`: the first user with that username. */
  function FindByUsername(db: Db, username: string): (r: Option<UserId>)
    ensures r.None? <==> !UsernameTaken(db, username)
    ensures r.Some? ==> r.value < |db.users| && db.users[r.value].username == username
    ensures r.Some? ==> forall j :: 0 <= j < r.value ==> db.users[j].username != username
  {
    Seqs.IndexWhere(db.users, (u: User) => u.username == username)
  }

  /** `User.findOne({ email })`: the first user with that email. */
  function FindByEmail(db: Db, email: string): (r: Option<UserId>)
    ensures r.None? <==> !EmailTaken(db, email)
    ensures r.Some? ==> r.value < |db.users| && db.users[r.value].email == email
    ensures r.Some? ==> forall j :: 0 <= j < r.value ==> db.users[j].email != email
  {
    Seqs.IndexWhere(db.users, (u: User) => u.email == email)
  }

  /** The `required: true` String paths of a new user that are empty. */
  function MissingUserPaths(username: string, email: string): set<string> {
    (if username == "" then {"username"} else {}) + (if email == "" then {"email"} else {})
  }

  /** The `required: true` String paths of a new recipe that are empty. */
  function MissingRecipePaths(f: RecipeFields): set<string> {
    (if f.title == "" then {"title"} else {})
    + (if f.ingredients == "" then {"ingredients"} else {})
    + (if f.instructions == "" then {"instructions"} else {})
    + (if f.category == "" then {"category"} else {})
    + (if f.date == "" then {"date"} else {})
  }

  /**
   * `register`: the username check comes first, then the email check; the
   * new user is saved with the hashed password (the salt stands for bcrypt's
   * random salt), and saving fails validation when a required field is empty.
   */
  function Register(db: Db, username: string, email: string, password: string, salt: nat): (s: Step<UserView>)
    ensures UsernameTaken(db, username) ==> s == Step(db, Err(Error(UsernameExists)))
    ensures !UsernameTaken(db, username) && EmailTaken(db, email) ==> s == Step(db, Err(Error(EmailExists)))
    ensures !UsernameTaken(db, username) && !EmailTaken(db, email) && MissingUserPaths(username, email) != {} ==>
              s == Step(db, Err(ValidationError(MissingUserPaths(username, email))))
    ensures s.result.Err? ==> s.db == db
    ensures s.result.Ok? <==> !UsernameTaken(db, username) && !EmailTaken(db, email) && username != "" && email != ""
    ensures s.result.Ok? ==>
              && s.result.value == UserView(|db.users|, email, username)
              && s.db.users == db.users + [User(username, email, Passwords.Hash(password, salt))]
              && s.db.recipes == db.recipes && s.db.nextRecipeId == db.nextRecipeId
  {
    if FindByUsername(db, username).Some? then Step(db, Err(Error(UsernameExists)))
    else if FindByEmail(db, email).Some? then Step(db, Err(Error(EmailExists)))
    else
      var hashed := Passwords.Hash(password, salt);
      var missing := MissingUserPaths(username, email);
      if missing != {} then
        assert username == "" ==> "username" in missing;
        Step(db, Err(ValidationError(missing)))
      else
        var id := |db.users|;
        Step(db.(users := db.users + [User(username, email, hashed)]), Ok(UserView(id, email, username)))
  }

  /**
   * `login`: an unknown username and a wrong password give the same error;
   * on success both tokens name the user, one expiring in an hour and one in
   * seven days. The store is not touched.
   */
  function Login(db: Db, username: string, password: string, secret: nat, now: nat): (r: Result<AuthPayload, ApiError>)
    ensures r.Err? ==> r.error == Error(InvalidCredentials)
    ensures !UsernameTaken(db, username) ==> r.Err?
    ensures r.Ok? ==>
              var a := Tokens.Verify(r.value.token, secret, now);
              var f := Tokens.Verify(r.value.refreshToken, secret, now);
              && a.Some? && f.Some? && a.value.userId == f.value.userId
              && Authenticates(db, a.value.userId, username, password)
              && a.value.exp == now + Tokens.AccessLifetime
              && f.value.exp == now + Tokens.RefreshLifetime
  {
    match FindByUsername(db, username)
    case None => Err(Error(InvalidCredentials))
    case Some(id) =>
      if !Passwords.Matches(password, db.users[id].password) then Err(Error(InvalidCredentials))
      else
        var token := Tokens.Mint(secret, id, now, Tokens.AccessLifetime);
        var refreshToken := Tokens.Mint(secret, id, now, Tokens.RefreshLifetime);
        Tokens.VerifyMinted(secret, secret, id, now, Tokens.AccessLifetime, now);
        Tokens.VerifyMinted(secret, secret, id, now, Tokens.RefreshLifetime, now);
        Ok(AuthPayload(token, refreshToken))
  }

  /** `token.replace('Bearer ', '')`: removes the first occurrence, wherever it is. */
  function StripBearer(header: string): (r: string)
    ensures Strings.StartsWith(header, BearerPrefix) ==> r == header[|BearerPrefix|..]
    ensures !Strings.Contains(header, BearerPrefix) ==> r == header
    ensures Strings.Contains(header, BearerPrefix) ==> |r| == |header| - |BearerPrefix|
    ensures Strings.IndexOf(header, BearerPrefix).Some? ==>
              var i := Strings.IndexOf(header, BearerPrefix).value;
              r == header[..i] + header[i + |BearerPrefix|..]
  {
    Strings.ReplaceFirst(header, BearerPrefix, "")
  }

  /** 'Bearer ' is removed where it first occurs, not only at the start: "xBearer y" becomes "xy". */
  lemma StripBearerInside()
    ensures StripBearer("xBearer y") == "xy"
  {
    assert "xBearer y"[0] != BearerPrefix[0];
    assert !Strings.StartsWith("xBearer y", BearerPrefix);
    assert Strings.StartsWith("xBearer y"[1..], BearerPrefix);
    assert Strings.IndexOf("xBearer y"[1..], BearerPrefix) == Some(0);
    assert Strings.IndexOf("xBearer y", BearerPrefix) == Some(1);
  }

  /**
   * The request context: no header (or an empty one) is an anonymous caller;
   * otherwise the stripped token must verify and name an existing user, and
   * every failure, including a missing user, becomes 'Invalid token'.
   */
  function ResolveContext(db: Db, authorization: Option<string>, secret: nat, now: nat): (r: Result<Option<UserId>, ApiError>)
    ensures authorization.GetOr("") == "" ==> r == Ok(None)
    ensures authorization.GetOr("") != "" ==>
              var c := Tokens.Verify(StripBearer(authorization.value), secret, now);
              && (r.Err? <==> c.None? || c.value.userId >= |db.users|)
              && (r.Ok? ==> r.value == Some(c.value.userId))
    ensures r.Err? ==> r.error == AuthenticationError(InvalidToken)
  {
    var header := authorization.GetOr("");
    if header == "" then Ok(None)
    else
      match Tokens.Verify(StripBearer(header), secret, now)
      case None => Err(AuthenticationError(InvalidToken))
      case Some(c) => if c.userId < |db.users| then Ok(Some(c.userId)) else Err(AuthenticationError(InvalidToken))
  }

  /** The `/refresh_token` reply: a bare 401, or 200 with `{ accessToken }`. */
  datatype RefreshResponse = Unauthorized | Issued(accessToken: string)

  /**
   * `POST /refresh_token`: a missing or empty token, one that does not
   * verify, and one naming no user all give 401; otherwise a fresh one-hour
   * access token for the same user. The refresh token itself stays valid.
   */
  function RefreshRoute(db: Db, refreshToken: Option<string>, secret: nat, now: nat): (r: RefreshResponse)
    ensures refreshToken.GetOr("") == "" ==> r == Unauthorized
    ensures refreshToken.GetOr("") != "" ==>
              var c := Tokens.Verify(refreshToken.value, secret, now);
              && (r.Issued? <==> c.Some? && c.value.userId < |db.users|)
              && (r.Issued? ==> Tokens.Verify(r.accessToken, secret, now)
                                == Some(Tokens.Claims(c.value.userId, now + Tokens.AccessLifetime)))
  {
    var rt := refreshToken.GetOr("");
    if rt == "" then Unauthorized
    else
      match Tokens.Verify(rt, secret, now)
      case None => Unauthorized
      case Some(c) =>
        if c.userId >= |db.users| then Unauthorized
        else
          Tokens.VerifyMinted(secret, secret, c.userId, now, Tokens.AccessLifetime, now);
          Issued(Tokens.Mint(secret, c.userId, now, Tokens.AccessLifetime))
  }

  /** `getRecipes`: exactly the caller's recipes. */
  function GetRecipes(db: Db, caller: Option<UserId>): (r: Result<map<RecipeId, RecipeFields>, ApiError>)
    ensures caller.None? ==> r == Err(AuthenticationError(MustBeLoggedIn))
    ensures caller.Some? ==> r.Ok?
    ensures r.Ok? ==> forall id :: id in r.value <==> Owns(db, caller.value, id)
    ensures r.Ok? ==> forall id :: id in r.value ==> id in db.recipes && r.value[id] == db.recipes[id].fields
  {
    match caller
    case None => Err(AuthenticationError(MustBeLoggedIn))
    case Some(u) => Ok(map id | id in db.recipes && db.recipes[id].owner == u :: db.recipes[id].fields)
  }

  /** `getRecipe(id)`: null both when the recipe is absent and when it is someone else's. */
  function GetRecipe(db: Db, caller: Option<UserId>, id: RecipeId): (r: Result<Option<RecipeView>, ApiError>)
    ensures caller.None? ==> r == Err(AuthenticationError(MustBeLoggedIn))
    ensures caller.Some? ==> r.Ok? && (r.value.Some? <==> Owns(db, caller.value, id))
    ensures r.Ok? && r.value.Some? ==> r.value.value == RecipeView(id, db.recipes[id].fields)
  {
    match caller
    case None => Err(AuthenticationError(MustBeLoggedIn))
    case Some(u) => Ok(if Owns(db, u, id) then Some(RecipeView(id, db.recipes[id].fields)) else None)
  }

  /**
   * `addRecipe`: the owner is always the caller (it is applied after the
   * arguments), the id is fresh, and saving fails validation when a
   * required field is empty.
   */
  function AddRecipe(db: Db, caller: Option<UserId>, fields: RecipeFields): (s: Step<RecipeView>)
    ensures caller.None? ==> s == Step(db, Err(AuthenticationError(MustBeLoggedIn)))
    ensures caller.Some? && MissingRecipePaths(fields) != {} ==> s == Step(db, Err(ValidationError(MissingRecipePaths(fields))))
    ensures s.result.Ok? <==> caller.Some? && MissingRecipePaths(fields) == {}
    ensures s.result.Ok? ==>
              var id := s.result.value.id;
              && s.result.value.fields == fields
              && s.db.recipes == db.recipes[id := Recipe(fields, caller.value)]
              && s.db.users == db.users
              && id == db.nextRecipeId < s.db.nextRecipeId
  {
    match caller
    case None => Step(db, Err(AuthenticationError(MustBeLoggedIn)))
    case Some(u) =>
      var missing := MissingRecipePaths(fields);
      if missing != {} then Step(db, Err(ValidationError(missing)))
      else
        var id := db.nextRecipeId;
        Step(Db(db.users, db.recipes[id := Recipe(fields, u)], id + 1), Ok(RecipeView(id, fields)))
  }

  /** `deleteRecipe(id)`: only the owner's matching recipe is removed. */
  function DeleteRecipe(db: Db, caller: Option<UserId>, id: RecipeId): (s: Step<bool>)
    ensures caller.None? ==> s == Step(db, Err(AuthenticationError(MustBeLoggedIn)))
    ensures caller.Some? && !Owns(db, caller.value, id) ==> s == Step(db, Err(Error(NotFoundOrNotAuthorized)))
    ensures s.result.Ok? <==> caller.Some? && Owns(db, caller.value, id)
    ensures s.result.Ok? ==>
              && s.result.value == true
              && s.db.recipes == db.recipes - {id}
              && s.db.users == db.users && s.db.nextRecipeId == db.nextRecipeId
  {
    match caller
    case None => Step(db, Err(AuthenticationError(MustBeLoggedIn)))
    case Some(u) =>
      if !Owns(db, u, id) then Step(db, Err(Error(NotFoundOrNotAuthorized)))
      else Step(db.(recipes := db.recipes - {id}), Ok(true))
  }

  /**
   * `updateRecipe(id, ...)`: only the owner's matching recipe is changed;
   * its five fields are replaced, its owner kept, and the updated record is
   * returned. `findOneAndUpdate` runs no validators, so empty fields are
   * stored as given.
   */
  function UpdateRecipe(db: Db, caller: Option<UserId>, id: RecipeId, fields: RecipeFields): (s: Step<RecipeView>)
    ensures caller.None? ==> s == Step(db, Err(AuthenticationError(MustBeLoggedIn)))
    ensures caller.Some? && !Owns(db, caller.value, id) ==> s == Step(db, Err(Error(NotFoundOrNotAuthorized)))
    ensures s.result.Ok? <==> caller.Some? && Owns(db, caller.value, id)
    ensures s.result.Ok? ==>
              && s.db.recipes == db.recipes[id := Recipe(fields, db.recipes[id].owner)]
              && s.db.recipes[id].owner == caller.value
              && s.result.value == RecipeView(id, s.db.recipes[id].fields)
              && s.db.users == db.users && s.db.nextRecipeId == db.nextRecipeId
  {
    match caller
    case None => Step(db, Err(AuthenticationError(MustBeLoggedIn)))
    case Some(u) =>
      if !Owns(db, u, id) then Step(db, Err(Error(NotFoundOrNotAuthorized)))
      else Step(db.(recipes := db.recipes[id := Recipe(fields, u)]), Ok(RecipeView(id, fields)))
  }

  /** The recipe operations, all of which need a logged-in caller. */
  datatype RecipeOp =
    | GetRecipesOp
    | GetRecipeOp(id: RecipeId)
    | AddRecipeOp(fields: RecipeFields)
    | DeleteRecipeOp(id: RecipeId)
    | UpdateRecipeOp(id: RecipeId, fields: RecipeFields)

  datatype Reply =
    | RecipeMap(recipes: map<RecipeId, RecipeFields>)
    | MaybeRecipe(found: Option<RecipeView>)
    | OneRecipe(recipe: RecipeView)
    | Deleted(ok: bool)

  function MapResult<T, U>(r: Result<T, ApiError>, f: T -> U): Result<U, ApiError> {
    match r
    case Ok(v) => Ok(f(v))
    case Err(e) => Err(e)
  }

  /**
   * Runs one recipe operation. Without a caller every one of them fails with
   * 'You must be logged in' and changes nothing; none of them touches the
   * user store, and a recipe that was not there before belongs to the caller.
   */
  function Execute(db: Db, caller: Option<UserId>, op: RecipeOp): (s: Step<Reply>)
    ensures caller.None? ==> s == Step(db, Err(AuthenticationError(MustBeLoggedIn)))
    ensures s.db.users == db.users
    ensures forall id :: id in s.db.recipes && id !in db.recipes ==> caller.Some? && s.db.recipes[id].owner == caller.value
  {
    match op
    case GetRecipesOp => Step(db, MapResult(GetRecipes(db, caller), (m: map<RecipeId, RecipeFields>) => RecipeMap(m)))
    case GetRecipeOp(id) => Step(db, MapResult(GetRecipe(db, caller, id), (v: Option<RecipeView>) => MaybeRecipe(v)))
    case AddRecipeOp(fields) =>
      var s := AddRecipe(db, caller, fields);
      Step(s.db, MapResult(s.result, (v: RecipeView) => OneRecipe(v)))
    case DeleteRecipeOp(id) =>
      var s := DeleteRecipe(db, caller, id);
      Step(s.db, MapResult(s.result, (b: bool) => Deleted(b)))
    case UpdateRecipeOp(id, fields) =>
      var s := UpdateRecipe(db, caller, id, fields);
      Step(s.db, MapResult(s.result, (v: RecipeView) => OneRecipe(v)))
  }

  /** One GraphQL request: one of the two open mutations or a recipe operation. */
  datatype Request =
    | RegisterRequest(username: string, email: string, password: string)
    | LoginRequest(username: string, password: string)
    | RecipeRequest(op: RecipeOp)

  datatype Response =
    | Registered(user: UserView)
    | LoggedIn(auth: AuthPayload)
    | RecipeReply(reply: Reply)

  /**
   * A whole request: the context function runs first, for every operation,
   * `register` and `login` included, so a header that fails to resolve
   * rejects the request with 'Invalid token' before any resolver runs. Once
   * it resolves, the resolver runs with the resolved caller and its store
   * and its value or error are the request's.
   */
  function HandleRequest(db: Db, authorization: Option<string>, req: Request, secret: nat, now: nat, salt: nat)
    : (s: Step<Response>)
    ensures ResolveContext(db, authorization, secret, now).Err? ==> s == Step(db, Err(AuthenticationError(InvalidToken)))
    ensures authorization.GetOr("") == "" && req.RecipeRequest? ==> s == Step(db, Err(AuthenticationError(MustBeLoggedIn)))
    ensures req.LoginRequest? ==> s.db == db
    ensures !req.RegisterRequest? ==> s.db.users == db.users
    ensures s.result.Ok? ==>
              && ResolveContext(db, authorization, secret, now).Ok?
              && (req.RegisterRequest? <==> s.result.value.Registered?)
              && (req.LoginRequest? <==> s.result.value.LoggedIn?)
    ensures ResolveContext(db, authorization, secret, now).Ok? && req.RegisterRequest? ==>
              var r := Register(db, req.username, req.email, req.password, salt);
              && s.db == r.db
              && (r.result.Ok? ==> s.result == Ok(Registered(r.result.value)))
              && (r.result.Err? ==> s.result == Err(r.result.error))
    ensures ResolveContext(db, authorization, secret, now).Ok? && req.LoginRequest? ==>
              var r := Login(db, req.username, req.password, secret, now);
              && (r.Ok? ==> s.result == Ok(LoggedIn(r.value)))
              && (r.Err? ==> s.result == Err(r.error))
    ensures ResolveContext(db, authorization, secret, now).Ok? && req.RecipeRequest? ==>
              var r := Execute(db, ResolveContext(db, authorization, secret, now).value, req.op);
              && s.db == r.db
              && (r.result.Ok? ==> s.result == Ok(RecipeReply(r.result.value)))
              && (r.result.Err? ==> s.result == Err(r.result.error))
  {
    match ResolveContext(db, authorization, secret, now)
    case Err(e) => Step(db, Err(e))
    case Ok(caller) =>
      match req
      case RegisterRequest(username, email, password) =>
        var r := Register(db, username, email, password, salt);
        Step(r.db, MapResult(r.result, (v: UserView) => Registered(v)))
      case LoginRequest(username, password) =>
        Step(db, MapResult(Login(db, username, password, secret, now), (p: AuthPayload) => LoggedIn(p)))
      case RecipeRequest(op) =>
        var r := Execute(db, caller, op);
        Step(r.db, MapResult(r.result, (v: Reply) => RecipeReply(v)))
  }

  /** Every request, whatever its header, keeps the store invariant. */
  lemma HandleRequestPreservesValid(db: Db, authorization: Option<string>, req: Request, secret: nat, now: nat, salt: nat)
    requires Valid(db)
    ensures Valid(HandleRequest(db, authorization, req, secret, now, salt).db)
  {
    var ctx := ResolveContext(db, authorization, secret, now);
    if ctx.Ok? {
      match req
      case RegisterRequest(username, email, password) =>
        RegisterPreservesValid(db, username, email, password, salt);
      case LoginRequest(_, _) =>
      case RecipeRequest(op) =>
        ExecutePreservesValid(db, ctx.value, op);
    }
  }

  /**
   * A header that resolves does not affect `register` or `login`: with it
   * they behave exactly as they do for an anonymous request.
   */
  lemma OpenMutationsIgnoreCaller(db: Db, authorization: Option<string>, req: Request, secret: nat, now: nat, salt: nat)
    requires ResolveContext(db, authorization, secret, now).Ok?
    requires !req.RecipeRequest?
    ensures HandleRequest(db, authorization, req, secret, now, salt) == HandleRequest(db, None, req, secret, now, salt)
  {
  }

  /**
   * A non-empty header that does not verify blocks every request, `login`
   * and `register` included, and leaves the store unchanged.
   */
  lemma RejectedHeaderBlocksAll(db: Db, header: string, req: Request, secret: nat, now: nat, salt: nat)
    requires header != "" && Tokens.Verify(StripBearer(header), secret, now).None?
    ensures HandleRequest(db, Some(header), req, secret, now, salt) == Step(db, Err(AuthenticationError(InvalidToken)))
  {
  }

  /** Registration keeps usernames and emails unique. */
  lemma RegisterPreservesValid(db: Db, username: string, email: string, password: string, salt: nat)
    requires Valid(db)
    ensures Valid(Register(db, username, email, password, salt).db)
  {
    var s := Register(db, username, email, password, salt);
    if s.result.Ok? {
      var users := s.db.users;
      forall i, j | 0 <= i < j < |users|
        ensures users[i].username != users[j].username && users[i].email != users[j].email
      {
        if j == |db.users| {
          assert users[i] == db.users[i];
        }
      }
    }
  }

  /** A recipe operation by an existing user keeps the store invariant. */
  lemma ExecutePreservesValid(db: Db, caller: Option<UserId>, op: RecipeOp)
    requires Valid(db)
    requires caller.Some? ==> caller.value < |db.users|
    ensures Valid(Execute(db, caller, op).db)
  {
  }

  /** In a valid store no recipe operation changes the owner of a recipe that survives it. */
  lemma OwnershipStable(db: Db, caller: Option<UserId>, op: RecipeOp)
    requires Valid(db)
    ensures var s := Execute(db, caller, op);
            forall id :: id in db.recipes && id in s.db.recipes ==> s.db.recipes[id].owner == db.recipes[id].owner
  {
  }

  /** With the unique username index, login succeeds exactly for a matching user and password. */
  lemma LoginSucceedsIff(db: Db, username: string, password: string, secret: nat, now: nat)
    requires Valid(db)
    ensures Login(db, username, password, secret, now).Ok? <==> exists i :: Authenticates(db, i, username, password)
  {
    if i :| Authenticates(db, i, username, password) {
      var found := FindByUsername(db, username);
      assert found.Some?;
      assert found.value == i;
    }
  }

  /** A freshly registered user can log in with the same password, and the tokens name that user. */
  lemma RegisterThenLogin(db: Db, username: string, email: string, password: string, salt: nat, secret: nat, now: nat)
    requires Valid(db)
    requires Register(db, username, email, password, salt).result.Ok?
    ensures var s := Register(db, username, email, password, salt);
            var r := Login(s.db, username, password, secret, now);
            && r.Ok?
            && Tokens.Verify(r.value.token, secret, now)
               == Some(Tokens.Claims(s.result.value.id, now + Tokens.AccessLifetime))
  {
    var s := Register(db, username, email, password, salt);
    RegisterPreservesValid(db, username, email, password, salt);
    var id := |db.users|;
    assert Authenticates(s.db, id, username, password);
    LoginSucceedsIff(s.db, username, password, secret, now);
    var r := Login(s.db, username, password, secret, now);
    var c := Tokens.Verify(r.value.token, secret, now).value;
    assert s.db.users[c.userId].username == username;
  }

  /** In a valid store the added recipe's id was not in use, so exactly one record is added. */
  lemma AddRecipeFresh(db: Db, caller: Option<UserId>, fields: RecipeFields)
    requires Valid(db)
    requires AddRecipe(db, caller, fields).result.Ok?
    ensures var s := AddRecipe(db, caller, fields);
            && s.result.value.id !in db.recipes
            && s.db.recipes.Keys == db.recipes.Keys + {s.result.value.id}
            && |s.db.recipes| == |db.recipes| + 1
  {
  }

  /** What `addRecipe` returns, `getRecipe` gives back, with the caller as owner. */
  lemma AddThenGet(db: Db, caller: Option<UserId>, fields: RecipeFields)
    requires AddRecipe(db, caller, fields).result.Ok?
    ensures var s := AddRecipe(db, caller, fields);
            var id := s.result.value.id;
            && GetRecipe(s.db, caller, id) == Ok(Some(RecipeView(id, fields)))
            && s.db.recipes[id].owner == caller.value
  {
  }

  /**
   * Another user's recipe is invisible to the caller: it is not listed,
   * `getRecipe` gives null as for an absent id, and delete and update fail
   * with the shared message, leaving the store as it was.
   */
  lemma CrossUserIsolation(db: Db, owner: UserId, other: UserId, id: RecipeId, absent: RecipeId, fields: RecipeFields)
    requires owner != other && id in db.recipes && db.recipes[id].owner == owner
    requires absent !in db.recipes
    ensures id !in GetRecipes(db, Some(other)).value
    ensures GetRecipe(db, Some(other), id) == GetRecipe(db, Some(other), absent) == Ok(None)
    ensures DeleteRecipe(db, Some(other), id) == Step(db, Err(Error(NotFoundOrNotAuthorized)))
    ensures UpdateRecipe(db, Some(other), id, fields) == Step(db, Err(Error(NotFoundOrNotAuthorized)))
  {
  }

  /** After a delete, the recipe is neither listed nor readable by its former owner. */
  lemma DeleteThenGet(db: Db, caller: Option<UserId>, id: RecipeId)
    requires DeleteRecipe(db, caller, id).result.Ok?
    ensures var s := DeleteRecipe(db, caller, id);
            && GetRecipe(s.db, caller, id) == Ok(None)
            && id !in GetRecipes(s.db, caller).value
            && DeleteRecipe(s.db, caller, id).result == Err(Error(NotFoundOrNotAuthorized))
  {
  }

  /** After an update, `getRecipe` by the owner gives exactly the new fields. */
  lemma UpdateThenGet(db: Db, caller: Option<UserId>, id: RecipeId, fields: RecipeFields)
    requires UpdateRecipe(db, caller, id, fields).result.Ok?
    ensures var s := UpdateRecipe(db, caller, id, fields);
            GetRecipe(s.db, caller, id) == Ok(Some(RecipeView(id, fields))) == Ok(Some(s.result.value))
  {
  }
}

=== FILE: session.dfy ===
/**
 * Properties that span the client and the server: the bearer header the
 * client builds is read back by the server's context resolver, tokens from
 * `login` and from `/refresh_token` authenticate the user they name, and the
 * header that the client's refresh path puts on its `Retry` action
 * authenticates the same user.
 */
module Session {
  import opened Wrappers
  import Strings
  import Tokens
  import Passwords
  import Server
  import ApolloClient

  /** Stripping the first 'Bearer ' from the client's header yields exactly the stored token. */
  lemma {:induction false} BearerRoundTrip(t: string)
    ensures Server.StripBearer(ApolloClient.BearerHeader(t)) == t
  {
    Strings.ReplaceFirstLeading(Server.BearerPrefix, t);
  }

  /** The authorization header `authLink` sends for the given storage. */
  function SentAuthorization(headers: ApolloClient.Headers, storage: ApolloClient.Storage): string {
    ApolloClient.AuthLink(headers, storage)[ApolloClient.AuthorizationKey]
  }

  /** Without a stored token the server sees an anonymous caller. */
  lemma NoTokenIsAnonymous(db: Server.Db, headers: ApolloClient.Headers, storage: ApolloClient.Storage, secret: nat, now: nat)
    requires !ApolloClient.Truthy(storage.token)
    ensures Server.ResolveContext(db, Some(SentAuthorization(headers, storage)), secret, now) == Ok(None)
  {
  }

  /**
   * A token the server minted for an existing user, sent by the client,
   * resolves to that user strictly before its expiry and to 'Invalid token'
   * from then on.
   */
  lemma {:induction false} MintedTokenResolves(db: Server.Db, headers: ApolloClient.Headers, secret: nat,
                                               id: nat, issuedAt: nat, lifetime: nat, now: nat)
    requires id < |db.users|
    ensures var t := Tokens.Mint(secret, id, issuedAt, lifetime);
            var ctx := Server.ResolveContext(db, Some(SentAuthorization(headers, ApolloClient.Storage(Some(t), None))), secret, now);
            && (now < issuedAt + lifetime ==> ctx == Ok(Some(id)))
            && (now >= issuedAt + lifetime ==> ctx == Err(Server.AuthenticationError(Server.InvalidToken)))
  {
    var t := Tokens.Mint(secret, id, issuedAt, lifetime);
    BearerRoundTrip(t);
    Tokens.VerifyMinted(secret, secret, id, issuedAt, lifetime, now);
  }

  /**
   * An expired access token left in storage is still attached by `authLink`,
   * and the server's context then rejects every request with it, `login`
   * and `register` included, without touching the store.
   */
  lemma {:induction false} ExpiredTokenBlocksAll(db: Server.Db, headers: ApolloClient.Headers, storage: ApolloClient.Storage,
                                                 req: Server.Request, secret: nat, id: nat, issuedAt: nat, lifetime: nat,
                                                 now: nat, salt: nat)
    requires storage.token == Some(Tokens.Mint(secret, id, issuedAt, lifetime))
    requires now >= issuedAt + lifetime
    ensures Server.HandleRequest(db, Some(SentAuthorization(headers, storage)), req, secret, now, salt)
            == Server.Step(db, Err(Server.AuthenticationError(Server.InvalidToken)))
  {
    var t := Tokens.Mint(secret, id, issuedAt, lifetime);
    assert t != [];
    BearerRoundTrip(t);
    Tokens.VerifyMinted(secret, secret, id, issuedAt, lifetime, now);
  }

  /**
   * A request carrying an unexpired access token of an existing user runs
   * the recipe operation as that user: the store and the outcome are those
   * of the operation with that caller.
   */
  lemma {:induction false} TokenRequestRunsAsUser(db: Server.Db, headers: ApolloClient.Headers, secret: nat, id: nat,
                                                  issuedAt: nat, now: nat, op: Server.RecipeOp, salt: nat)
    requires id < |db.users| && now < issuedAt + Tokens.AccessLifetime
    ensures var t := Tokens.Mint(secret, id, issuedAt, Tokens.AccessLifetime);
            var s := Server.HandleRequest(db, Some(SentAuthorization(headers, ApolloClient.Storage(Some(t), None))),
                                          Server.RecipeRequest(op), secret, now, salt);
            var r := Server.Execute(db, Some(id), op);
            && s.db == r.db
            && (r.result.Ok? ==> s.result == Ok(Server.RecipeReply(r.result.value)))
            && (r.result.Err? ==> s.result == Err(r.result.error))
  {
    MintedTokenResolves(db, headers, secret, id, issuedAt, Tokens.AccessLifetime, now);
  }

  /**
   * `getRecipes` sent with an unexpired access token lists exactly the
   * recipes the token's user owns, with their fields, and changes nothing.
   */
  lemma {:induction false} TokenListsOwnRecipes(db: Server.Db, headers: ApolloClient.Headers, secret: nat, id: nat,
                                                issuedAt: nat, now: nat, salt: nat)
    requires id < |db.users| && now < issuedAt + Tokens.AccessLifetime
    ensures var t := Tokens.Mint(secret, id, issuedAt, Tokens.AccessLifetime);
            var s := Server.HandleRequest(db, Some(SentAuthorization(headers, ApolloClient.Storage(Some(t), None))),
                                          Server.RecipeRequest(Server.GetRecipesOp), secret, now, salt);
            && s.db == db
            && s.result.Ok? && s.result.value.RecipeReply? && s.result.value.reply.RecipeMap?
            && (forall rid :: rid in s.result.value.reply.recipes <==> Server.Owns(db, id, rid))
            && (forall rid :: rid in s.result.value.reply.recipes ==> s.result.value.reply.recipes[rid] == db.recipes[rid].fields)
  {
    TokenRequestRunsAsUser(db, headers, secret, id, issuedAt, now, Server.GetRecipesOp, salt);
  }

  /** The user id `login` authenticated, read back from its access token. */
  lemma LoginTokens(db: Server.Db, username: string, password: string, secret: nat, issuedAt: nat)
    returns (id: nat)
    requires Server.FindByUsername(db, username).Some?
    requires Passwords.Matches(password, db.users[Server.FindByUsername(db, username).value].password)
    ensures var p := Server.Login(db, username, password, secret, issuedAt).value;
            && Server.Authenticates(db, id, username, password)
            && p.token == Tokens.Mint(secret, id, issuedAt, Tokens.AccessLifetime)
            && p.refreshToken == Tokens.Mint(secret, id, issuedAt, Tokens.RefreshLifetime)
  {
    id := Server.FindByUsername(db, username).value;
  }

  /**
   * After `login`, the stored access token authenticates the user for one
   * hour, and the refresh token, being the same kind of token, does so for
   * seven days.
   */
  lemma {:induction false} LoginTokensAuthenticate(db: Server.Db, username: string, password: string, secret: nat,
                                                   issuedAt: nat, now: nat, headers: ApolloClient.Headers)
    requires Server.FindByUsername(db, username).Some?
    requires Passwords.Matches(password, db.users[Server.FindByUsername(db, username).value].password)
    ensures var p := Server.Login(db, username, password, secret, issuedAt).value;
            var access := Server.ResolveContext(db, Some(SentAuthorization(headers, ApolloClient.Storage(Some(p.token), None))), secret, now);
            var refresh := Server.ResolveContext(db, Some(SentAuthorization(headers, ApolloClient.Storage(Some(p.refreshToken), None))), secret, now);
            && (now < issuedAt + Tokens.AccessLifetime <==> access.Ok?)
            && (access.Ok? ==> access.value.Some? && Server.Authenticates(db, access.value.value, username, password))
            && (now < issuedAt + Tokens.RefreshLifetime <==> refresh.Ok?)
            && (refresh.Ok? ==> refresh.value.Some? && Server.Authenticates(db, refresh.value.value, username, password))
  {
    var id := LoginTokens(db, username, password, secret, issuedAt);
    MintedTokenResolves(db, headers, secret, id, issuedAt, Tokens.AccessLifetime, now);
    MintedTokenResolves(db, headers, secret, id, issuedAt, Tokens.RefreshLifetime, now);
  }

  /**
   * `/refresh_token` accepts either token `login` returned while it is
   * unexpired, and the new access token names the same user.
   */
  lemma {:induction false} RefreshAcceptsLoginTokens(db: Server.Db, username: string, password: string, secret: nat,
                                                     issuedAt: nat, now: nat)
    requires Server.FindByUsername(db, username).Some?
    requires Passwords.Matches(password, db.users[Server.FindByUsername(db, username).value].password)
    ensures var p := Server.Login(db, username, password, secret, issuedAt).value;
            var byRefresh := Server.RefreshRoute(db, Some(p.refreshToken), secret, now);
            var byAccess := Server.RefreshRoute(db, Some(p.token), secret, now);
            && (byRefresh.Issued? <==> now < issuedAt + Tokens.RefreshLifetime)
            && (byAccess.Issued? <==> now < issuedAt + Tokens.AccessLifetime)
            && (byRefresh.Issued? ==>
                  var c := Tokens.Verify(byRefresh.accessToken, secret, now);
                  c.Some? && c.value.exp == now + Tokens.AccessLifetime
                  && Server.Authenticates(db, c.value.userId, username, password))
            && (byRefresh.Issued? && byAccess.Issued? ==> byRefresh == byAccess)
  {
    var id := LoginTokens(db, username, password, secret, issuedAt);
    Tokens.VerifyMinted(secret, secret, id, issuedAt, Tokens.AccessLifetime, now);
    Tokens.VerifyMinted(secret, secret, id, issuedAt, Tokens.RefreshLifetime, now);
  }

  /** The server's `/refresh_token` route seen as the client's `fetch`. */
  function ServerFetch(db: Server.Db, secret: nat, now: nat): string -> ApolloClient.FetchOutcome {
    (rt: string) => ApolloClient.Responded(Server.RefreshRoute(db, Some(rt), secret, now))
  }

  /**
   * The client's recovery from an UNAUTHENTICATED error against this server:
   * with an unexpired refresh token from `login`, the new access token is
   * stored, the refresh token kept, and the header of the `Retry` action
   * authenticates the same user; with an expired one, both slots are cleared.
   */
  lemma {:induction false} RefreshRetryAuthenticates(db: Server.Db, username: string, password: string, secret: nat,
                                                     issuedAt: nat, now: nat, oldToken: Option<string>,
                                                     errors: seq<ApolloClient.GraphQLError>, k: nat,
                                                     operationHeaders: ApolloClient.Headers)
    requires Server.FindByUsername(db, username).Some?
    requires Passwords.Matches(password, db.users[Server.FindByUsername(db, username).value].password)
    requires k < |errors| && errors[k].code == Some(ApolloClient.UnauthenticatedCode)
    ensures var p := Server.Login(db, username, password, secret, issuedAt).value;
            var storage := ApolloClient.Storage(oldToken, Some(p.refreshToken));
            var h := ApolloClient.ErrorLink(Some(errors), storage, operationHeaders, ServerFetch(db, secret, now));
            && (now < issuedAt + Tokens.RefreshLifetime ==>
                  && h.action.Retry?
                  && h.storage.refreshToken == Some(p.refreshToken)
                  && h.action.headers[ApolloClient.AuthorizationKey] == SentAuthorization(operationHeaders, h.storage)
                  && var ctx := Server.ResolveContext(db, Some(h.action.headers[ApolloClient.AuthorizationKey]), secret, now);
                     ctx.Ok? && ctx.value.Some? && Server.Authenticates(db, ctx.value.value, username, password))
            && (now >= issuedAt + Tokens.RefreshLifetime ==>
                  h == ApolloClient.Handled(ApolloClient.Storage(None, None), ApolloClient.RedirectToLogin))
  {
    var id := LoginTokens(db, username, password, secret, issuedAt);
    var p := Server.Login(db, username, password, secret, issuedAt).value;
    var storage := ApolloClient.Storage(oldToken, Some(p.refreshToken));
    var r := ApolloClient.RefreshRequest(Some(errors), storage);
    assert r == Some(p.refreshToken);
    Tokens.VerifyMinted(secret, secret, id, issuedAt, Tokens.RefreshLifetime, now);
    var response := Server.RefreshRoute(db, Some(p.refreshToken), secret, now);
    if now < issuedAt + Tokens.RefreshLifetime {
      assert response == Server.Issued(Tokens.Mint(secret, id, now, Tokens.AccessLifetime));
      MintedTokenResolves(db, operationHeaders, secret, id, now, Tokens.AccessLifetime, now);
    } else {
      assert response == Server.Unauthorized;
    }
  }

  /**
   * The whole session: register alice, log in, add a recipe under the access
   * token within the hour, list it, then exchange the refresh token within
   * seven days for an access token that lists the same recipe.
   */
  lemma {:induction false} EndToEnd(secret: nat, salt: nat, t0: nat, t1: nat, t2: nat, fields: Server.RecipeFields)
    requires t0 <= t1 < t0 + Tokens.AccessLifetime
    requires t0 <= t2 < t0 + Tokens.RefreshLifetime
    requires Server.MissingRecipePaths(fields) == {}
    ensures var reg := Server.Register(Server.Empty, "alice", "a@x.com", "pw1", salt);
            && reg.result.Ok? && Server.Valid(reg.db)
            && var alice := reg.result.value.id;
               var login := Server.Login(reg.db, "alice", "pw1", secret, t0);
               && login.Ok?
               && var storage := ApolloClient.Storage(Some(login.value.token), Some(login.value.refreshToken));
                  var ctx1 := Server.ResolveContext(reg.db, Some(SentAuthorization(map[], storage)), secret, t1);
                  && ctx1 == Ok(Some(alice))
                  && var add := Server.AddRecipe(reg.db, ctx1.value, fields);
                     && add.result.Ok?
                     && var id := add.result.value.id;
                        && add.db.recipes[id].owner == alice
                        && Server.ResolveContext(add.db, Some(SentAuthorization(map[], storage)), secret, t1) == Ok(Some(alice))
                        && Server.GetRecipes(add.db, Some(alice)) == Ok(map[id := fields])
                        && var refreshed := Server.RefreshRoute(add.db, Some(login.value.refreshToken), secret, t2);
                           && refreshed.Issued?
                           && Server.ResolveContext(add.db, Some(SentAuthorization(map[], storage.(token := Some(refreshed.accessToken)))), secret, t2)
                              == Ok(Some(alice))
  {
    AliceRegisters(salt);
    AliceLogsIn(salt, secret, t0);
    var db := AliceDb(salt);
    AliceValid(salt);
    var login := Server.Login(db, "alice", "pw1", secret, t0).value;
    var storage := ApolloClient.Storage(Some(login.token), Some(login.refreshToken));
    MintedTokenResolves(db, map[], secret, 0, t0, Tokens.AccessLifetime, t1);
    AliceAdds(salt, fields);
    var added := AliceWithRecipe(salt, fields);
    MintedTokenResolves(added, map[], secret, 0, t0, Tokens.AccessLifetime, t1);
    AliceRefreshes(salt, fields, secret, t0, t2);
    MintedTokenResolves(added, map[], secret, 0, t2, Tokens.AccessLifetime, t2);
  }

  /** Alice's store after her first recipe. */
  function AliceWithRecipe(salt: nat, fields: Server.RecipeFields): Server.Db {
    Server.Db(AliceDb(salt).users, map[0 := Server.Recipe(fields, 0)], 1)
  }

  /** Alice's first recipe gets id 0, and listing her recipes gives exactly it. */
  lemma AliceAdds(salt: nat, fields: Server.RecipeFields)
    requires Server.MissingRecipePaths(fields) == {}
    ensures Server.AddRecipe(AliceDb(salt), Some(0), fields)
            == Server.Step(AliceWithRecipe(salt, fields), Ok(Server.RecipeView(0, fields)))
    ensures Server.GetRecipes(AliceWithRecipe(salt, fields), Some(0)) == Ok(map[0 := fields])
  {
    assert AliceDb(salt).recipes[0 := Server.Recipe(fields, 0)] == map[0 := Server.Recipe(fields, 0)];
    var listed := Server.GetRecipes(AliceWithRecipe(salt, fields), Some(0)).value;
    assert listed.Keys == {0};
    assert listed == map[0 := fields];
  }

  /** Within seven days, alice's refresh token is exchanged for a fresh one-hour token. */
  lemma AliceRefreshes(salt: nat, fields: Server.RecipeFields, secret: nat, t0: nat, t2: nat)
    requires t2 < t0 + Tokens.RefreshLifetime
    ensures Server.RefreshRoute(AliceWithRecipe(salt, fields), Some(Tokens.Mint(secret, 0, t0, Tokens.RefreshLifetime)), secret, t2)
            == Server.Issued(Tokens.Mint(secret, 0, t2, Tokens.AccessLifetime))
  {
    Tokens.VerifyMinted(secret, secret, 0, t0, Tokens.RefreshLifetime, t2);
  }

  /** The store holding only alice. */
  function AliceDb(salt: nat): Server.Db {
    Server.Db([Server.User("alice", "a@x.com", Passwords.Hash("pw1", salt))], map[], 0)
  }

  /** Registering alice in an empty store succeeds and gives her the first id. */
  lemma AliceRegisters(salt: nat)
    ensures Server.Register(Server.Empty, "alice", "a@x.com", "pw1", salt)
            == Server.Step(AliceDb(salt), Ok(Server.UserView(0, "a@x.com", "alice")))
  {
    assert !Server.UsernameTaken(Server.Empty, "alice") && !Server.EmailTaken(Server.Empty, "a@x.com");
  }

  /** The store after alice registers satisfies the store invariant, as the empty store does. */
  lemma AliceValid(salt: nat)
    ensures Server.Valid(AliceDb(salt))
  {
    Server.EmptyValid();
    Server.RegisterPreservesValid(Server.Empty, "alice", "a@x.com", "pw1", salt);
    AliceRegisters(salt);
  }

  /** Alice's login returns tokens minted for id 0. */
  lemma AliceLogsIn(salt: nat, secret: nat, t0: nat)
    ensures Server.Login(AliceDb(salt), "alice", "pw1", secret, t0)
            == Ok(Server.AuthPayload(Tokens.Mint(secret, 0, t0, Tokens.AccessLifetime),
                                     Tokens.Mint(secret, 0, t0, Tokens.RefreshLifetime)))
  {
    assert Server.FindByUsername(AliceDb(salt), "alice") == Some(0);
  }
}

=== FILE: strings.dfy ===
/**
 * String helpers with JavaScript semantics: `toLowerCase` (ASCII part),
 * `startsWith`, `includes`, `indexOf`, `replace` with a string pattern,
 * `split` on one character, and `trim`.
 */
module Strings {
  import opened Wrappers

  /** ASCII lower-casing of one character; other characters are unchanged. */
  function LowerChar(c: char): char {
    if 'A' <= c <= 'Z' then (c as int + 32) as char else c
  }

  /** `s.toLowerCase()` restricted to ASCII letters. */
  function Lower(s: string): (r: string)
    ensures |r| == |s|
    ensures forall i :: 0 <= i < |s| ==> r[i] == LowerChar(s[i])
    ensures forall i :: 0 <= i < |r| ==> !('A' <= r[i] <= 'Z')
  {
    seq(|s|, i requires 0 <= i < |s| => LowerChar(s[i]))
  }

  /** `s.startsWith(p)`: every character of `p` is matched at the same position of `s`. */
  function StartsWith(s: string, p: string): (b: bool)
    ensures b <==> |p| <= |s| && forall k :: 0 <= k < |p| ==> s[k] == p[k]
  {
    |p| <= |s| && s[..|p|] == p
  }

  /**
   * `s.indexOf(pat)`: the first position at which `pat` occurs in `s`, or
   * `None` for JavaScript's -1.
   */
  function IndexOf(s: string, pat: string): (r: Option<nat>)
    ensures r.Some? ==> r.value + |pat| <= |s| && s[r.value..r.value + |pat|] == pat
    ensures r.Some? ==> forall j :: 0 <= j < r.value ==> !StartsWith(s[j..], pat)
    ensures r.None? ==> forall j :: 0 <= j <= |s| ==> !StartsWith(s[j..], pat)
    decreases |s|
  {
    if StartsWith(s, pat) then Some(0)
    else if |s| == 0 then None
    else
      SuffixShift(s);
      match IndexOf(s[1..], pat)
      case None => None
      case Some(i) =>
        SliceShift(s, i, |pat|);
        Some(i + 1)
  }

  lemma SuffixShift(s: string)
    requires |s| > 0
    ensures forall j :: 1 <= j <= |s| ==> s[j..] == s[1..][j - 1..]
  {
  }

  lemma SliceShift(s: string, i: nat, n: nat)
    requires |s| > 0 && i + n <= |s| - 1
    ensures s[i + 1..i + 1 + n] == s[1..][i..i + n]
  {
    var a, b := s[i + 1..i + 1 + n], s[1..][i..i + n];
    assert |a| == |b|;
    assert forall k :: 0 <= k < n ==> a[k] == s[i + 1 + k] == b[k];
  }

  /** `s.includes(t)`: `t` starts at some position of `s`. */
  function Contains(s: string, t: string): (b: bool)
    ensures b <==> exists j :: 0 <= j <= |s| && StartsWith(s[j..], t)
  {
    match IndexOf(s, t)
    case None => false
    case Some(i) =>
      assert s[i..][..|t|] == s[i..i + |t|];
      true
  }

  /**
   * `s.replace(pat, rep)` with a string pattern: only the FIRST occurrence
   * of `pat` is replaced, wherever it is; without one, `s` is returned.
   */
  function ReplaceFirst(s: string, pat: string, rep: string): (r: string)
    ensures IndexOf(s, pat).None? ==> r == s
    ensures IndexOf(s, pat).Some? ==>
              var i := IndexOf(s, pat).value;
              |r| == |s| - |pat| + |rep| && r[..i] == s[..i] && r[i..i + |rep|] == rep
              && r[i + |rep|..] == s[i + |pat|..]
  {
    match IndexOf(s, pat)
    case None => s
    case Some(i) =>
      var r := s[..i] + rep + s[i + |pat|..];
      assert r[..i] == s[..i];
      assert r[i..i + |rep|] == rep;
      assert r[i + |rep|..] == s[i + |pat|..];
      r
  }

  /** A pattern at the very start of a string is its first occurrence. */
  lemma IndexOfPrefix(pat: string, t: string)
    ensures IndexOf(pat + t, pat) == Some(0)
  {
    assert (pat + t)[..|pat|] == pat;
  }

  /** Replacing a leading pattern by nothing gives back exactly what followed it. */
  lemma {:induction false} ReplaceFirstLeading(pat: string, t: string)
    ensures ReplaceFirst(pat + t, pat, "") == t
  {
    IndexOfPrefix(pat, t);
    assert (pat + t)[|pat|..] == t;
  }

  /**
   * White space and line terminators as removed by `String.prototype.trim`:
   * TAB, LF, VT, FF, CR, SPACE, NBSP, BOM, LS, PS and the Unicode `Zs`
   * category.
   */
  predicate IsWs(c: char) {
    c == '\t' || c == '\n' || c == '\U{B}' || c == '\U{C}' || c == '\r' || c == ' '
    || c == '\U{A0}' || c == '\U{FEFF}' || c == '\U{1680}' || ('\U{2000}' <= c <= '\U{200A}')
    || c == '\U{2028}' || c == '\U{2029}' || c == '\U{202F}' || c == '\U{205F}' || c == '\U{3000}'
  }

  /** Leading white space removed: the longest suffix of `s` that does not start with white space. */
  function TrimStart(s: string): (r: string)
    ensures |r| <= |s| && r == s[|s| - |r|..]
    ensures forall k :: 0 <= k < |s| - |r| ==> IsWs(s[k])
    ensures r == [] || !IsWs(r[0])
    decreases |s|
  {
    if |s| > 0 && IsWs(s[0]) then TrimStart(s[1..]) else s
  }

  /** Trailing white space removed: the longest prefix of `s` that does not end with white space. */
  function TrimEnd(s: string): (r: string)
    ensures |r| <= |s| && r == s[..|r|]
    ensures forall k :: |r| <= k < |s| ==> IsWs(s[k])
    ensures r == [] || !IsWs(r[|r| - 1])
    decreases |s|
  {
    if |s| > 0 && IsWs(s[|s| - 1]) then TrimEnd(s[..|s| - 1]) else s
  }

  /** `r` occurs in `s` at position `i`. */
  ghost predicate SliceAt(r: string, s: string, i: int) {
    0 <= i <= |s| - |r| && r == s[i..i + |r|]
  }

  /** `r` occurs in `s` at position `i` and everything of `s` outside that slice is white space. */
  ghost predicate TrimmedAt(r: string, s: string, i: int) {
    SliceAt(r, s, i)
    && (forall k :: 0 <= k < i ==> IsWs(s[k]))
    && (forall k :: i + |r| <= k < |s| ==> IsWs(s[k]))
  }

  /**
   * `s.trim()`: the slice of `s` that starts where the leading white space
   * ends, with only white space before and after it.
   */
  function Trim(s: string): (r: string)
    ensures |r| <= |s|
    ensures TrimmedAt(r, s, |s| - |TrimStart(s)|)
    ensures r == [] || (!IsWs(r[0]) && !IsWs(r[|r| - 1]))
  {
    TrimSlice(s);
    TrimEnd(TrimStart(s))
  }

  lemma TrimSlice(s: string)
    ensures TrimmedAt(TrimEnd(TrimStart(s)), s, |s| - |TrimStart(s)|)
  {
    SuffixPrefixTrimmed(s, TrimStart(s), TrimEnd(TrimStart(s)));
  }

  /** A white-space-free-ended prefix `r` of a suffix `t` of `s` is `s` trimmed, if all that was cut is white space. */
  lemma SuffixPrefixTrimmed(s: string, t: string, r: string)
    requires |t| <= |s| && t == s[|s| - |t|..] && (forall k :: 0 <= k < |s| - |t| ==> IsWs(s[k]))
    requires |r| <= |t| && r == t[..|r|] && (forall k :: |r| <= k < |t| ==> IsWs(t[k]))
    ensures TrimmedAt(r, s, |s| - |t|)
  {
    var i := |s| - |t|;
    assert r == s[i..i + |r|];
    forall k | i + |r| <= k < |s|
      ensures IsWs(s[k])
    {
      assert s[k] == t[k - i];
    }
  }

  /** Trim is the identity exactly on strings with no white space at either end. */
  lemma TrimFixpoint(s: string)
    ensures Trim(s) == s <==> (s == [] || (!IsWs(s[0]) && !IsWs(s[|s| - 1])))
  {
    if s != [] && !IsWs(s[0]) && !IsWs(s[|s| - 1]) {
      TrimKeeps(s);
    } else {
      var r := Trim(s);
      assert r == [] || (!IsWs(r[0]) && !IsWs(r[|r| - 1]));
    }
  }

  lemma TrimKeeps(s: string)
    requires s != [] && !IsWs(s[0]) && !IsWs(s[|s| - 1])
    ensures Trim(s) == s
  {
    assert TrimStart(s) == s;
    assert TrimEnd(s) == s;
  }

  /** Trimming twice is trimming once. */
  lemma TrimIdempotent(s: string)
    ensures Trim(Trim(s)) == Trim(s)
  {
    TrimFixpoint(Trim(s));
  }

  /** Number of occurrences of `c` in `s`. */
  function Count(s: string, c: char): nat
    decreases |s|
  {
    if |s| == 0 then 0 else (if s[0] == c then 1 else 0) + Count(s[1..], c)
  }

  /**
   * `s.split(sep)` for a one-character separator: the maximal pieces between
   * separators, so that `"".split(sep)` is `[""]` and a trailing separator
   * yields a trailing empty piece.
   */
  function Split(s: string, sep: char): (r: seq<string>)
    ensures |r| >= 1
    ensures forall k :: 0 <= k < |r| ==> sep !in r[k]
    decreases |s|
  {
    if |s| == 0 then [[]]
    else
      var rest := Split(s[1..], sep);
      if s[0] == sep then [[]] + rest else [[s[0]] + rest[0]] + rest[1..]
  }

  /** `pieces.join(sep)`. */
  function Join(pieces: seq<string>, sep: char): string
    decreases |pieces|
  {
    if |pieces| == 0 then []
    else if |pieces| == 1 then pieces[0]
    else pieces[0] + [sep] + Join(pieces[1..], sep)
  }

  /** Splitting yields one more piece than there are separators. */
  lemma {:induction false} SplitCount(s: string, sep: char)
    ensures |Split(s, sep)| == Count(s, sep) + 1
    decreases |s|
  {
    if |s| > 0 {
      SplitCount(s[1..], sep);
    }
  }

  /** Joining the pieces with the separator gives back the input. */
  lemma {:induction false} SplitJoin(s: string, sep: char)
    ensures Join(Split(s, sep), sep) == s
    decreases |s|
  {
    if |s| > 0 {
      var rest := Split(s[1..], sep);
      SplitJoin(s[1..], sep);
      if s[0] == sep {
        assert Split(s, sep)[1..] == rest;
      } else {
        var r := Split(s, sep);
        assert r[1..] == rest[1..];
        if |rest| == 1 {
          assert Join(r, sep) == [s[0]] + rest[0];
        } else {
          assert Join(r, sep) == [s[0]] + rest[0] + [sep] + Join(rest[1..], sep);
        }
        assert s == [s[0]] + s[1..];
      }
    }
  }

  /** A string without the separator is a single piece. */
  lemma {:induction false} SplitNoSep(a: string, sep: char)
    requires sep !in a
    ensures Split(a, sep) == [a]
    decreases |a|
  {
    if |a| > 0 {
      SplitNoSep(a[1..], sep);
      assert a == [a[0]] + a[1..];
    }
  }

  /** A separator-free head followed by the separator becomes the first piece. */
  lemma {:induction false} SplitCons(a: string, sep: char, b: string)
    requires sep !in a
    ensures Split(a + [sep] + b, sep) == [a] + Split(b, sep)
    decreases |a|
  {
    var s := a + [sep] + b;
    if |a| == 0 {
      assert s[1..] == b;
    } else {
      assert s[1..] == a[1..] + [sep] + b;
      SplitCons(a[1..], sep, b);
      assert a == [a[0]] + a[1..];
    }
  }
}

=== FILE: tokens.dfy ===
/**
 * The signed, time-boxed tokens the server issues with `jwt.sign` and checks
 * with `jwt.verify`. A token carries the claims `{userId, exp}` and a
 * signature computed from the claims and the shared secret; it verifies iff
 * it is well formed, its signature matches the secret, and the current time
 * (in seconds) is strictly before `exp`.
 */
module Tokens {
  import opened Wrappers
  import Strings
  import Decimal

  /** `expiresIn: '1h'`, in seconds. */
  const AccessLifetime: nat := 3600
  /** `expiresIn: '7d'`, in seconds. */
  const RefreshLifetime: nat := 7 * 24 * 3600

  /** The payload `{ userId }` plus the expiry `jwt.sign` adds. */
  datatype Claims = Claims(userId: nat, exp: nat)

  /**
   * Stand-in for the HMAC signature: a tag computed from the secret and the
   * claims. Only one property is relied on: for the same claims, different
   * secrets give different tags.
   */
  function Mac(secret: nat, c: Claims): nat {
    secret + c.userId + c.exp
  }

  /** The wire form `userId.exp.signature`. */
  function Sign(secret: nat, c: Claims): (token: string)
    ensures token != []
  {
    Decimal.Show(c.userId) + "." + Decimal.Show(c.exp) + "." + Decimal.Show(Mac(secret, c))
  }

  /** `jwt.sign({ userId }, secret, { expiresIn: lifetime })` at time `now`. */
  function Mint(secret: nat, userId: nat, now: nat, lifetime: nat): (token: string)
    ensures token != []
    ensures Decode(token) == Some((Claims(userId, now + lifetime), Mac(secret, Claims(userId, now + lifetime))))
  {
    DecodeSign(secret, Claims(userId, now + lifetime));
    Sign(secret, Claims(userId, now + lifetime))
  }

  /** Splits a token into its claims and signature; `None` for a malformed token. */
  function Decode(token: string): Option<(Claims, nat)> {
    var parts := Strings.Split(token, '.');
    if |parts| != 3 then None
    else
      match (Decimal.Read(parts[0]), Decimal.Read(parts[1]), Decimal.Read(parts[2]))
      case (Some(u), Some(e), Some(sig)) => Some((Claims(u, e), sig))
      case _ => None
  }

  /**
   * `jwt.verify(token, secret)` at time `now`: the claims of a token that is
   * well formed, signed with `secret` and not yet expired. Expired, tampered
   * and malformed tokens all give the same `None`.
   */
  function Verify(token: string, secret: nat, now: nat): (r: Option<Claims>)
    ensures r.Some? ==> now < r.value.exp
    ensures r.Some? ==> Decode(token) == Some((r.value, Mac(secret, r.value)))
    ensures forall c :: Decode(token) == Some((c, Mac(secret, c))) && now < c.exp ==> r == Some(c)
  {
    match Decode(token)
    case None => None
    case Some((c, sig)) => if sig == Mac(secret, c) && now < c.exp then Some(c) else None
  }

  /** Decoding a signed token recovers its claims and signature. */
  lemma {:induction false} DecodeSign(secret: nat, c: Claims)
    ensures Decode(Sign(secret, c)) == Some((c, Mac(secret, c)))
  {
    var a, b, d := Decimal.Show(c.userId), Decimal.Show(c.exp), Decimal.Show(Mac(secret, c));
    assert Sign(secret, c) == a + ['.'] + (b + ['.'] + d);
    Strings.SplitCons(a, '.', b + ['.'] + d);
    Strings.SplitCons(b, '.', d);
    Strings.SplitNoSep(d, '.');
    Decimal.ReadShow(c.userId);
    Decimal.ReadShow(c.exp);
    Decimal.ReadShow(Mac(secret, c));
  }

  /**
   * A minted token verifies under the same secret strictly before its expiry,
   * and under no other secret or at any later time.
   */
  lemma VerifyMinted(secret: nat, key: nat, userId: nat, issuedAt: nat, lifetime: nat, now: nat)
    ensures Verify(Mint(secret, userId, issuedAt, lifetime), key, now)
            == if key == secret && now < issuedAt + lifetime then Some(Claims(userId, issuedAt + lifetime)) else None
  {
    DecodeSign(secret, Claims(userId, issuedAt + lifetime));
  }
}

=== FILE: wrappers.dfy ===
/** Failure-carrying datatypes shared by the whole model. */
module Wrappers {

  /** A value that may be absent (JavaScript's `null`/`undefined`). */
  datatype Option<+T> = None | Some(value: T) {
    function GetOr(default: T): T {
      match this
      case Some(v) => v
      case None => default
    }
  }

  /** The outcome of an operation that may throw: a value or the error it throws. */
  datatype Result<+T, +E> = Ok(value: T) | Err(error: E)
}
